=== FILE: README.md ===
# Scheduled downtime ranges, modelled in Dafny

This project models `IcingaScheduledDowntimeRanges`, the Icinga Director
class that holds the time ranges of one scheduled downtime (for example
`monday => "09:00-17:00"`). The class has five pieces of state:

- `ranges`: the working set of range entries, in PHP array (insertion) order;
- `storedRanges`: the snapshot taken when the entries were loaded or last stored;
- `modified`: a change flag;
- `idx`: a sorted key index;
- `position`: the iterator cursor over `idx`.

The class edits entries with `setRange`, `set`, `remove` and `clear`. It
reads them through `get`, `__isset`, `count`, `getValues`,
`getOriginalValues`, `listRangesNames` and the `Iterator` methods. `store`
writes the entries back and removes the vanished ones. `toConfigString`
renders the entries as an Icinga 2 `ranges = { ... }` block.

Entries are heap objects (`RangeEntry.Range`), and the collection is a class
(`DowntimeRanges.ScheduledDowntimeRanges`) whose methods update its fields.
This makes the aliasing in the code visible: after `store`, the snapshot and
the working set hold the same entry objects, so a later in-place value change
also shows in `getOriginalValues`.

Each method is proved against a specification written on values:

- `Values()` is the key → value view of the working set;
- `Assignment.Assign` is `setRange` on that view;
- `Assignment.Replace` is `set` on that view;
- `RangeEntry.KSort` is `ksort`;
- `RangeEntry.DeletesFor` is the delete list of `store`;
- `ConfigText.ConfigText` is the rendered block.

The laws the code relies on are lemmas about these functions.

Modules:

- `KeyOrder`: the key order `ksort` uses.
- `RangeEntry`: entries, parent, lookup, removal, sorting, value views, delete list.
- `Assignment`: `setRange` and `set` on the key → value view.
- `ConfigText`: the rendered text.
- `DowntimeRanges`: the class itself.
- `Scenarios`: short call sequences with fixed outcomes.

Some behaviour follows from the code and not from a quick reading of the class:

- `listRangesNames` and `getValues` return keys in insertion order. Only
  `remove` and `clear` sort the working set.
- Adding a key with `setRange` does not rebuild the key index, and neither
  does loading. The iterator only reaches keys that were indexed by the last
  `remove` or `clear`.
- `store` does not reset `modified`.
- After `store`, `storedRanges` is a copy of the working array that holds the
  same entry objects, so an in-place value change shows in both.
- `setRange(k, null)` for an absent `k` adds an entry with a null value. So
  `set` with a null value is not idempotent (`Assignment.SetWithNullNotIdempotent`).

## Model

| member | source | states |
|---|---|---|
| DowntimeRanges.ScheduledDowntimeRanges.constructor | library/Director/Objects/IcingaScheduledDowntimeRanges.php:13-28 | A new collection belongs to the given parent. It has no entries, an empty snapshot, no change flag, an empty index and the cursor at 0. |
| DowntimeRanges.ScheduledDowntimeRanges.LoadForStoredObject | library/Director/Objects/IcingaScheduledDowntimeRanges.php:201-221 | Loading makes one new entry per row, in row order, with the row's parent id, key and value. The snapshot holds a separate clone of each entry. The flag stays clear, and the index stays empty because loading never builds it. |
| DowntimeRanges.ScheduledDowntimeRanges.Count | library/Director/Objects/IcingaScheduledDowntimeRanges.php:30-33 | The count is the number of distinct keys held. |
| DowntimeRanges.ScheduledDowntimeRanges.HasBeenModified | library/Director/Objects/IcingaScheduledDowntimeRanges.php:40-43 | Reports the change flag. |
| DowntimeRanges.ScheduledDowntimeRanges.Get | library/Director/Objects/IcingaScheduledDowntimeRanges.php:69-76 | Returns null exactly when the key is absent. Otherwise it returns the working entry with that key. |
| DowntimeRanges.ScheduledDowntimeRanges.IsSet | library/Director/Objects/IcingaScheduledDowntimeRanges.php:153-156 | Holds exactly when some working entry has the key, which is exactly when `get` is not null. |
| DowntimeRanges.ScheduledDowntimeRanges.GetValues | library/Director/Objects/IcingaScheduledDowntimeRanges.php:78-86 | The loop yields the key and value of every working entry, in array order. |
| DowntimeRanges.ScheduledDowntimeRanges.GetOriginalValues | library/Director/Objects/IcingaScheduledDowntimeRanges.php:88-96 | The same for the snapshot. After a store, the snapshot holds the same entry objects as the working set. |
| DowntimeRanges.ScheduledDowntimeRanges.ListRangesNames | library/Director/Objects/IcingaScheduledDowntimeRanges.php:186-189 | Returns one name per entry, in array order (not sorted), with no repeats. |
| DowntimeRanges.ScheduledDowntimeRanges.SetRange | library/Director/Objects/IcingaScheduledDowntimeRanges.php:122-146 | The value view becomes `Assign(old view, k, v)`. The flag is set exactly when the view changed, and it is never cleared. The only entry it may write is the one with key `k`, and only for a non-null value; no held entry other than `k`'s is dropped. Null for a present key acts as `remove`: the working set becomes `ksort` of the entries without `k`, sorted with the index rebuilt, and every old entry is unchanged. A non-null value for a present key keeps the entry list and the index. An absent key gets exactly one new entry at the end, with the parent's id, key `k` and value `v`, and the index is not touched. Every old entry keeps its parent id, and every entry not held before carries the parent's id. |
| DowntimeRanges.ScheduledDowntimeRanges.Overwrite | library/Director/Objects/IcingaScheduledDowntimeRanges.php:129-134 | The in-place branch writes `v` into entry `i` and sets the flag. It writes only that entry's value: no other entry, and no parent id. The view changes at that key only. |
| DowntimeRanges.ScheduledDowntimeRanges.Append | library/Director/Objects/IcingaScheduledDowntimeRanges.php:136-143 | The new-key branch appends one fresh entry `(parent id, k, v)` and keeps every earlier entry in place. It sets the flag and leaves the index alone. The view gains `k ↦ v`. |
| DowntimeRanges.ScheduledDowntimeRanges.Set | library/Director/Objects/IcingaScheduledDowntimeRanges.php:108-120 | The view becomes `Replace(old view, entries)`: every entry assigned, then every key not named by the entries removed. The flag is never cleared, and it is set whenever the view changed. It writes only entries whose key the mapping gives a non-null value: every other old entry, including each one it drops (by a null value or by not naming it), is unchanged, and every entry it keeps is an old one or a fresh one. When some held key is not named, the entries come out sorted with the index rebuilt. When every held key is named and no null value names a held key, nothing is removed: the old entries keep their places, the index is untouched, and the new keys follow in the mapping's order (`array_diff` of the mapping's keys against the held ones). It writes only entry values, so no parent id of an old entry changes, and every entry it adds carries the parent's id. If the entries hold no null and the view already equals them, the entry list, the index, the flag and every value stay as they were. |
| DowntimeRanges.ScheduledDowntimeRanges.SetEach | library/Director/Objects/IcingaScheduledDowntimeRanges.php:110-112 | The first loop of `set` leaves the view at `AssignAll(old view, entries)`, with the flag never cleared and set when the view changed. Every old entry whose key the mapping does not give a non-null value is unchanged. It keeps every entry whose key the mapping does not name, and drops only entries whose key it gives a null value. When no null value names a held key, the old entries keep their places, the index is untouched, and the keys the loop adds follow in the mapping's order. It writes only entry values, and every entry it adds carries the parent's id. |
| DowntimeRanges.ScheduledDowntimeRanges.SetEntry | library/Director/Objects/IcingaScheduledDowntimeRanges.php:110-112 | One pass of that loop advances the view by one entry (`AssignAll` over one more entry). When no null value names a held key, the old entries still lead, followed by the new keys of the entries so far in mapping order, and the index is untouched. Each branch of `setRange` is passed on for the entry. A null value for a held key leaves `ksort` of the list without it, sorted, with the index rebuilt. A non-null value for a held key keeps the list and the index. An absent key gets one fresh entry appended with that key and value, and the index is untouched. The flag is set exactly when the view changed. Every entry is old or fresh, and no entry whose key the mapping does not name is dropped. An entry is dropped only when the mapping gives its key no non-null value. Every entry not in the starting list carries the parent's id. |
| DowntimeRanges.ScheduledDowntimeRanges.RemoveUnnamed | library/Director/Objects/IcingaScheduledDowntimeRanges.php:114-117 | The second loop of `set` keeps exactly the old entries whose key the mapping names, and the view becomes the old view restricted to those keys. It writes no entry. When every held key is named, nothing changes (entries, index, flag). Otherwise the flag is set and the entries come out sorted with the index rebuilt. |
| DowntimeRanges.ScheduledDowntimeRanges.RemoveEach | library/Director/Objects/IcingaScheduledDowntimeRanges.php:115-117 | `remove` for each listed key drops exactly the listed keys from the view, keeps every other entry and writes no entry. It sets the flag exactly when the list is not empty. An empty list changes nothing; a non-empty one leaves the entries sorted with the index rebuilt. |
| DowntimeRanges.ScheduledDowntimeRanges.Remove | library/Director/Objects/IcingaScheduledDowntimeRanges.php:158-166 | The working set becomes `ksort` of the entries without `k`, and the view loses exactly `k`. The flag is set even when `k` was absent, and no entry is written. The entries are sorted and the index equals their strictly ascending key list. |
| DowntimeRanges.ScheduledDowntimeRanges.Clear | library/Director/Objects/IcingaScheduledDowntimeRanges.php:168-173 | Clearing empties both the entries and the index, and sets the flag. |
| DowntimeRanges.ScheduledDowntimeRanges.RefreshIndex | library/Director/Objects/IcingaScheduledDowntimeRanges.php:175-179 | The entries become `ksort` of themselves, sorted by key. The index becomes their key list. |
| DowntimeRanges.ScheduledDowntimeRanges.Rewind | library/Director/Objects/IcingaScheduledDowntimeRanges.php:35-38 | The cursor goes back to 0. |
| DowntimeRanges.ScheduledDowntimeRanges.ValidPosition | library/Director/Objects/IcingaScheduledDowntimeRanges.php:64-67 | The cursor is valid exactly when `current` is not null. |
| DowntimeRanges.ScheduledDowntimeRanges.Current | library/Director/Objects/IcingaScheduledDowntimeRanges.php:45-52 | Returns null past the end of the index. Otherwise it returns the working entry whose key is the indexed key under the cursor. |
| DowntimeRanges.ScheduledDowntimeRanges.Key | library/Director/Objects/IcingaScheduledDowntimeRanges.php:54-57 | Returns the indexed key under the cursor, which is a key of the working set, or nothing past the end. |
| DowntimeRanges.ScheduledDowntimeRanges.Next | library/Director/Objects/IcingaScheduledDowntimeRanges.php:59-62 | Advances the cursor by one. |
| DowntimeRanges.ScheduledDowntimeRanges.Store | library/Director/Objects/IcingaScheduledDowntimeRanges.php:223-241 | Every entry gets the parent's id and keeps its value. It emits one upsert per entry, in order, with that id, key and value. The deletes are exactly `DeletesFor(old snapshot, keys)`. The snapshot becomes a copy of the working list that holds the same entry objects. The entry list, the flag, the index and the cursor stay as they were, and the result is true. |
| DowntimeRanges.CollectDeletes | library/Director/Objects/IcingaScheduledDowntimeRanges.php:231-236 | The delete loop yields `DeletesFor(stored, keep)`. |
| DowntimeRanges.ScheduledDowntimeRanges.ToConfigString | library/Director/Objects/IcingaScheduledDowntimeRanges.php:254-271 | The loop's text equals `ConfigText(isTemplate, getValues, render)`. |
| DowntimeRanges.ScheduledDowntimeRanges.ToLegacyConfigString | library/Director/Objects/IcingaScheduledDowntimeRanges.php:273-276 | There is no legacy form: the text is empty. |
| DowntimeRanges.ScheduledDowntimeRanges.GetRangeTableName | library/Director/Objects/IcingaScheduledDowntimeRanges.php:196-199 | The parent's table name followed by `_range`. |
| ConfigText.ConfigText | library/Director/Objects/IcingaScheduledDowntimeRanges.php:254-271 | The text is empty exactly for an empty template. An empty non-template renders as the bare `    ranges = {\n    }\n` block. |
| ConfigText.ConfigTextLineCount | library/Director/Objects/IcingaScheduledDowntimeRanges.php:260-270 | When the escaper never emits a line break, a rendered block has exactly one line per entry plus the opening and closing lines. |
| ConfigText.EntryLineCount | library/Director/Objects/IcingaScheduledDowntimeRanges.php:263-267 | When the escaper emits no line break for the entry's key and value, the entry renders to exactly one line. |
| Assignment.Assign | library/Director/Objects/IcingaScheduledDowntimeRanges.php:122-146 | Null for a present key drops the key. Any other call leaves the key mapped to `v`. Every other key keeps its presence and value. |
| Assignment.AssignSame | library/Director/Objects/IcingaScheduledDowntimeRanges.php:129-131 | Assigning a present key the non-null value it already has changes nothing. |
| Assignment.KeyDiff | library/Director/Objects/IcingaScheduledDowntimeRanges.php:114 | `array_diff` keeps exactly the keys of the first list that are absent from the second, without repeats when the first list has none. |
| Assignment.KeepNamedByDiff | library/Director/Objects/IcingaScheduledDowntimeRanges.php:114-117 | Removing the keys `array_diff` reports (held keys minus the mapping's keys) keeps exactly the entries whose keys the mapping names. |
| Assignment.AssignAllOutside | library/Director/Objects/IcingaScheduledDowntimeRanges.php:110-112 | The first loop of `set` leaves every key the mapping does not name as it was, present with the same value or absent. |
| Assignment.ValuedKeys | library/Director/Objects/IcingaScheduledDowntimeRanges.php:110-112 | The keys the mapping gives a non-null value are keys of the mapping: the only entries the first loop may write. |
| Assignment.ReplaceNoNulls | library/Director/Objects/IcingaScheduledDowntimeRanges.php:108-120 | Without null values, `set(M)` leaves exactly the mapping `M`: full-replace semantics. |
| Assignment.AssignAllNoNulls | library/Director/Objects/IcingaScheduledDowntimeRanges.php:110-112 | Without null values, the first loop of `set` overlays `M` on the old view. |
| Assignment.SetIdempotent | library/Director/Objects/IcingaScheduledDowntimeRanges.php:108-120 | Without null values, calling `set(M)` twice gives what one call gives. |
| Assignment.SetWithNullNotIdempotent | library/Director/Objects/IcingaScheduledDowntimeRanges.php:124-127 | With a null value the second `set` differs. The first call drops the key, and the second re-adds it with a null value. |
| Assignment.EntryStep | library/Director/Objects/IcingaScheduledDowntimeRanges.php:110-112 | For entry `i` of a mapping with unique keys, the first loop of `set` advances by exactly that entry. Its key is named by no earlier entry, and it is written exactly when its value is non-null. When no null value names a held key, a null one names a key still absent at that point. When the mapping already is the view, without nulls, the entry holds its own value. |
| Assignment.OrderStep | library/Director/Objects/IcingaScheduledDowntimeRanges.php:110-143 | When nothing is removed, a `setRange` of a key named nowhere before either leaves the list alone (the key is held) or appends it. Either way the old entries still lead, followed by the new keys so far, in mapping order. |
| Assignment.KeyDiffSnoc | library/Director/Objects/IcingaScheduledDowntimeRanges.php:114 | `array_diff` over one more key adds that key at the end unless it is dropped. |
| Assignment.AssignAllNamed | library/Director/Objects/IcingaScheduledDowntimeRanges.php:110-117 | When the mapping names every held key, it names every key after the first loop too, so the second loop removes nothing. |
| Assignment.EntryMapAt | library/Director/Objects/IcingaScheduledDowntimeRanges.php:110 | With unique keys, the mapping an argument array denotes holds each entry's own value. |
| RangeEntry.Find | library/Director/Objects/IcingaScheduledDowntimeRanges.php:71 | `array_key_exists`: there is no position exactly when the key is absent, and a found position holds that key. |
| RangeEntry.Without | library/Director/Objects/IcingaScheduledDowntimeRanges.php:160-162 | `unset` keeps exactly the entries with other keys. An absent key leaves the list unchanged. |
| RangeEntry.WithoutFacts | library/Director/Objects/IcingaScheduledDowntimeRanges.php:160-162 | Removing a key keeps keys unique and only drops entries. |
| RangeEntry.KSort | library/Director/Objects/IcingaScheduledDowntimeRanges.php:177 | `ksort` yields a permutation of the entries in strictly ascending key order. |
| RangeEntry.InsertByKeySorted | library/Director/Objects/IcingaScheduledDowntimeRanges.php:177 | Inserting an entry of a new key into a sorted list keeps it sorted. |
| RangeEntry.InsertByKeyPermutes | library/Director/Objects/IcingaScheduledDowntimeRanges.php:177 | Insertion adds exactly that entry to the multiset. |
| RangeEntry.KSortCanonical | library/Director/Objects/IcingaScheduledDowntimeRanges.php:177 | `ksort` depends only on which entries there are, not on their order. |
| RangeEntry.SortedKeys | library/Director/Objects/IcingaScheduledDowntimeRanges.php:175-179 | A sorted entry list has unique keys, and its key list (the index) is strictly ascending. |
| RangeEntry.SortedWithoutView | library/Director/Objects/IcingaScheduledDowntimeRanges.php:158-166 | Removing `k` and sorting keeps every other entry and drops exactly `k` from the view. |
| RangeEntry.ValueMapPermutation | library/Director/Objects/IcingaScheduledDowntimeRanges.php:177 | Reordering the entries (as `ksort` does) does not change the key → value view. |
| RangeEntry.ValueMapWithout | library/Director/Objects/IcingaScheduledDowntimeRanges.php:160-162 | `unset` removes exactly that key from the view. |
| RangeEntry.ValueMapAppend | library/Director/Objects/IcingaScheduledDowntimeRanges.php:137-141 | Appending an entry with a new key adds exactly that key and value to the view. |
| RangeEntry.ValuesOfAt | library/Director/Objects/IcingaScheduledDowntimeRanges.php:81-83 | The value list has one pair per entry, in order. |
| RangeEntry.UniqueKeySetSize | library/Director/Objects/IcingaScheduledDowntimeRanges.php:30-33 | With unique keys, the number of entries is the number of keys. |
| RangeEntry.DeletesForFacts | library/Director/Objects/IcingaScheduledDowntimeRanges.php:231-236 | Every delete targets the range table and a stored key that is no longer kept. Every stored entry that is not kept yields its delete, with its own parent id. There are at most as many deletes as stored entries. |
| RangeEntry.DeletesForDistinct | library/Director/Objects/IcingaScheduledDowntimeRanges.php:231-236 | A snapshot with unique keys gets at most one delete per key. |
| RangeEntry.StoreAgainDeletesNothing | library/Director/Objects/IcingaScheduledDowntimeRanges.php:231-238 | Right after a store the snapshot is the working set, so a second store deletes nothing. |
| RangeEntry.NothingToDelete | library/Director/Objects/IcingaScheduledDowntimeRanges.php:231-236 | When every stored key is kept, nothing is deleted. |
| KeyOrder.BelowTotal | library/Director/Objects/IcingaScheduledDowntimeRanges.php:177 | Any two distinct keys are ordered one way or the other. |
| KeyOrder.BelowTransitive | library/Director/Objects/IcingaScheduledDowntimeRanges.php:177 | The key order is transitive. |
| KeyOrder.AscendingUnique | library/Director/Objects/IcingaScheduledDowntimeRanges.php:175-179 | Two strictly ascending key lists with the same keys are equal, so the index is determined by the key set. |
| Scenarios.SnapshotSharesEntriesAfterStore | library/Director/Objects/IcingaScheduledDowntimeRanges.php:238 | Load `monday`, store, then change its value in place: `getOriginalValues` shows the new value. |
| Scenarios.NamesKeepInsertionOrder | library/Director/Objects/IcingaScheduledDowntimeRanges.php:186-189 | Add `tuesday`, then `monday`: the names come back as `["tuesday", "monday"]`. |
| Scenarios.AddedKeyIsNotIterated | library/Director/Objects/IcingaScheduledDowntimeRanges.php:135-143 | A key added by `setRange` is counted, but after `rewind` the iterator is not valid. |
| Scenarios.SetAppendsInMappingOrder | library/Director/Objects/IcingaScheduledDowntimeRanges.php:108-143 | `set` of `tuesday`, then `monday`, on an empty collection gives the names `["tuesday", "monday"]` (not sorted), and both new entries carry the parent's id. |
| Scenarios.SetKeepsStoredIds | library/Director/Objects/IcingaScheduledDowntimeRanges.php:108-134 | Load `monday`, store, then `set` it to a new value: the entry keeps its parent id. |
| Scenarios.DroppedEntryStaysInSnapshot | library/Director/Objects/IcingaScheduledDowntimeRanges.php:108-127 | Load `monday`, store, then `set` it to null: the working set is empty, and the snapshot still shows `monday` with its stored value, because `set` does not write an entry it drops. |

## Left out

- Database I/O: the query and `loadAll` in `loadFromDb` (lines 203-213) are
  replaced by a list of rows given to `LoadForStoredObject`. The rows are
  assumed to have distinct keys, as the table's key guarantees. Their order
  is kept as given, which leaves the query's `ORDER BY range_key` to the caller.
- Persistence calls: `$range->store($db)` and the adapter's `delete` (lines
  228, 232-235) become the `upserts` and `deletes` lists that `Store` returns.
  Each delete carries the stored entry's parent id and key, which is what
  `createWhere` identifies it by.
- Persistence failures: the writes are assumed to succeed. In the code a
  throwing `store` or `delete` leaves the entries before it already stamped
  and written, leaves `storedRanges` at its old value and propagates the
  error; `Store` always returns true.
- `IcingaConfigHelper::renderString` is not part of this model. It is a
  parameter `render` applied to the value as it is held, null included.
- `__toString` (lines 278-296): exception handling, handler swapping and `die()`.
- `getRangeClass`, `getClass` and `getType` (lines 181-184, 191-194, 243-246):
  class-name strings and a pass-through to the parent.
- `getRanges` (lines 98-101): it returns the internal array, which the model
  exposes as the `ranges` field.
- `modify` (lines 103-106): it is protected and never called.
- The PHP `Countable`/`Iterator` interfaces are represented by the methods
  themselves. PHP's conversion of numeric-string keys to integers, and
  `ksort`'s mixed comparison, are not modelled: keys are strings compared
  character by character (`KeyOrder.Below`).
- `getValues` and `getOriginalValues` return a PHP object. The model returns
  the list of key/value pairs that object is built from.
- `key()` past the end reads a missing index and returns null with a notice.
  The model returns `None`.
- DowntimeRanges.ScheduledDowntimeRanges.SetEach: when a null value removes
  a held key, the contract states the resulting view, the frame and the
  parent ids, but not the entry order or the index. In the code the list is
  sorted and the index rebuilt at each such removal, and later new keys
  follow unsorted and unindexed. Carrying that order and index through the
  loop was left out because of its proof cost.
- DowntimeRanges.ScheduledDowntimeRanges.Set: the same holds for the first
  loop of `set`. When a null value removes a held key and every held key is
  named, neither the entry order nor the index is stated. Both are stated
  when nothing is removed, and when the second loop sorts the result.

=== FILE: assignment.dfy ===
/**
 * The key → value view of the collection and what `setRange` and the
 * full-replace `set` do to it, stated on maps so that the laws of `set`
 * (it installs exactly the given mapping, it is idempotent) can be proved
 * once, apart from the heap.
 */
module Assignment {
  import opened Wrappers
  import opened RangeEntry

  type ValueView = map<string, Option<string>>

  /**
   * `setRange(k, v)` on the view: a null value drops a present key, anything
   * else (including null for an absent key) sets the key to `v`.
   */
  function Assign(m: ValueView, k: string, v: Option<string>): (m': ValueView)
    ensures k in m' <==> !(v.None? && k in m)
    ensures k in m' ==> m'[k] == v
    ensures forall k' :: k' != k ==> (k' in m' <==> k' in m)
    ensures forall k' :: k' != k && k' in m ==> m'[k'] == m[k']
  {
    if v.None? && k in m then m - {k} else m[k := v]
  }

  /** Setting a key to the value it already has changes nothing. */
  lemma AssignSame(m: ValueView, k: string, v: Option<string>)
    requires v.Some? && k in m && m[k] == v
    ensures Assign(m, k, v) == m
  {
  }

  /** The first loop of `set`: `setRange` for every entry, in order. */
  function AssignAll(m: ValueView, es: seq<Entry>): ValueView
  {
    if es == [] then m
    else
      var e := es[|es| - 1];
      Assign(AssignAll(m, es[..|es| - 1]), e.0, e.1)
  }

  /** The keys of a PHP array of entries, in order (`array_keys`). */
  function EntryKeys(es: seq<Entry>): seq<string>
  {
    seq(|es|, i requires 0 <= i < |es| => es[i].0)
  }

  /** The keys the entries give a non-null value: the only entries `set` may write. */
  function ValuedKeys(es: seq<Entry>): (ks: set<string>)
    ensures forall k :: k in ks ==> k in EntryKeys(es)
  {
    assert forall i :: 0 <= i < |es| ==> EntryKeys(es)[i] == es[i].0;
    set i | 0 <= i < |es| && es[i].1.Some? :: es[i].0
  }

  /** A PHP array never repeats a key. */
  predicate UniqueEntryKeys(es: seq<Entry>)
  {
    forall i, j :: 0 <= i < j < |es| ==> es[i].0 != es[j].0
  }

  /** No entry asks for a null value. */
  predicate NoNulls(es: seq<Entry>)
  {
    forall i :: 0 <= i < |es| ==> es[i].1.Some?
  }

  /** The mapping an array of entries denotes; a later entry wins. */
  function EntryMap(es: seq<Entry>): ValueView
  {
    if es == [] then map[]
    else
      var e := es[|es| - 1];
      EntryMap(es[..|es| - 1])[e.0 := e.1]
  }

  /** `array_diff`: the keys of `ks` not in `drop`, in order. */
  function KeyDiff(ks: seq<string>, drop: seq<string>): (d: seq<string>)
    ensures forall k :: k in d <==> k in ks && k !in drop
    ensures (forall i, j :: 0 <= i < j < |ks| ==> ks[i] != ks[j]) ==> forall i, j :: 0 <= i < j < |d| ==> d[i] != d[j]
  {
    if ks == [] then []
    else
      assert ks == [ks[0]] + ks[1..];
      (if ks[0] in drop then [] else [ks[0]]) + KeyDiff(ks[1..], drop)
  }

  /** The keys of a list, as a set. */
  function KeysIn(ks: seq<string>): (s: set<string>)
    ensures forall k :: k in s <==> k in ks
  {
    set k | k in ks
  }

  /** The entries of `m` whose keys `es` names: what the second loop of `set` keeps. */
  function KeepNamed(m: ValueView, es: seq<Entry>): (m': ValueView)
    ensures forall k :: k in m' <==> k in m && k in EntryKeys(es)
    ensures forall k :: k in m' ==> m'[k] == m[k]
  {
    map k | k in m && k in EntryKeys(es) :: m[k]
  }

  /**
   * `set(es)` on the view: every entry assigned, then every key not named by
   * `es` removed.
   */
  function Replace(m: ValueView, es: seq<Entry>): ValueView
  {
    KeepNamed(AssignAll(m, es), es)
  }

  lemma {:induction false} EntryMapKeys(es: seq<Entry>)
    ensures forall k :: k in EntryMap(es) <==> k in EntryKeys(es)
  {
    if es != [] {
      var init := es[..|es| - 1];
      EntryMapKeys(init);
      assert EntryKeys(es) == EntryKeys(init) + [es[|es| - 1].0];
    }
  }

  /** With unique keys, each entry's own value is the one the mapping holds. */
  lemma {:induction false} EntryMapAt(es: seq<Entry>, i: nat)
    requires UniqueEntryKeys(es) && i < |es|
    ensures es[i].0 in EntryMap(es) && EntryMap(es)[es[i].0] == es[i].1
  {
    var init := es[..|es| - 1];
    if i < |es| - 1 {
      assert UniqueEntryKeys(init) by {
        forall a, b | 0 <= a < b < |init|
          ensures init[a].0 != init[b].0
        {
          assert init[a] == es[a] && init[b] == es[b];
        }
      }
      EntryMapAt(init, i);
      assert init[i] == es[i];
    }
  }

  /** Without null values, assigning all entries overlays their mapping. */
  lemma {:induction false} AssignAllNoNulls(m: ValueView, es: seq<Entry>)
    requires NoNulls(es)
    ensures AssignAll(m, es) == m + EntryMap(es)
  {
    if es != [] {
      var init := es[..|es| - 1];
      assert NoNulls(init) by {
        forall i | 0 <= i < |init|
          ensures init[i].1.Some?
        {
          assert init[i] == es[i];
        }
      }
      AssignAllNoNulls(m, init);
      assert es[|es| - 1].1.Some?;
    }
  }

  /** Without null values, `set(es)` leaves exactly the mapping `es`. */
  lemma ReplaceNoNulls(m: ValueView, es: seq<Entry>)
    requires NoNulls(es)
    ensures Replace(m, es) == EntryMap(es)
  {
    AssignAllNoNulls(m, es);
    EntryMapKeys(es);
  }

  /** Without null values, calling `set(es)` twice gives what one call gives. */
  lemma SetIdempotent(m: ValueView, es: seq<Entry>)
    requires NoNulls(es)
    ensures Replace(Replace(m, es), es) == Replace(m, es)
  {
    ReplaceNoNulls(m, es);
    ReplaceNoNulls(Replace(m, es), es);
  }

  /**
   * With a null value the second call differs: the first call drops a
   * present key, the second finds it absent and adds it with a null value.
   */
  lemma SetWithNullNotIdempotent()
    ensures var m, es := map["monday" := Some("09:00-17:00")], [("monday", None)];
      Replace(m, es) == map[] && Replace(Replace(m, es), es) == map["monday" := None]
  {
    var m, es: seq<Entry> := map["monday" := Some("09:00-17:00")], [("monday", None)];
    assert es[..0] == [];
    assert EntryKeys(es) == ["monday"];
    assert AssignAll(m, es) == map[];
    assert AssignAll(map[], es) == map["monday" := None];
  }

  /** Assigning entries leaves every key they do not name as it was. */
  lemma {:induction false} AssignAllOutside(m: ValueView, es: seq<Entry>, k: string)
    requires k !in EntryKeys(es)
    ensures k in AssignAll(m, es) <==> k in m
    ensures k in m ==> AssignAll(m, es)[k] == m[k]
  {
    if es != [] {
      var init := es[..|es| - 1];
      assert EntryKeys(init) == EntryKeys(es)[..|es| - 1];
      assert es[|es| - 1].0 == EntryKeys(es)[|es| - 1];
      AssignAllOutside(m, init, k);
    }
  }

  /** When every key is to be kept, `array_diff` finds nothing. */
  lemma {:induction false} KeyDiffAllKept(ks: seq<string>, drop: seq<string>)
    requires forall k :: k in ks ==> k in drop
    ensures KeyDiff(ks, drop) == []
  {
    if ks != [] {
      assert ks[0] in ks;
      KeyDiffAllKept(ks[1..], drop);
    }
  }

  /**
   * The second loop of `set`: dropping the keys `array_diff` reports keeps
   * exactly the entries the mapping names.
   */
  lemma KeepNamedByDiff(m: ValueView, es: seq<Entry>, ks: seq<string>)
    requires forall k :: k in m <==> k in ks
    ensures m - KeysIn(KeyDiff(ks, EntryKeys(es))) == KeepNamed(m, es)
  {
    var d := KeysIn(KeyDiff(ks, EntryKeys(es)));
    assert (m - d).Keys == KeepNamed(m, es).Keys;
  }

  /**
   * No null value names a key the view holds, so no `setRange` of the first
   * loop of `set` takes the `remove` path.
   */
  predicate RemovesNone(m: ValueView, es: seq<Entry>)
  {
    forall i :: 0 <= i < |es| && es[i].1.None? ==> es[i].0 !in m
  }

  /** When the entries name every key of the view, they name every key of the result. */
  lemma AssignAllNamed(m: ValueView, es: seq<Entry>)
    requires forall k :: k in m ==> k in EntryKeys(es)
    ensures forall k :: k in AssignAll(m, es) ==> k in EntryKeys(es)
  {
    forall k | k in AssignAll(m, es) && k !in EntryKeys(es)
      ensures k in m
    {
      AssignAllOutside(m, es, k);
    }
  }

  /** `array_diff` one key further: the key comes last unless it is dropped. */
  lemma {:induction false} KeyDiffSnoc(ks: seq<string>, x: string, drop: seq<string>)
    ensures KeyDiff(ks + [x], drop) == KeyDiff(ks, drop) + (if x in drop then [] else [x])
  {
    if ks != [] {
      assert (ks + [x])[1..] == ks[1..] + [x];
      KeyDiffSnoc(ks[1..], x, drop);
    } else {
      assert [x][1..] == [];
    }
  }

  /**
   * What the first loop of `set` knows about entry `i` of a PHP array before
   * its `setRange`: the assignment advances by that entry; its key is named
   * nowhere before; it is written exactly when its value is non-null; when
   * no null value names a held key, a null one names a key still absent;
   * and when the array is already the view without nulls, the entry holds
   * its own value.
   */
  lemma EntryStep(m: ValueView, es: seq<Entry>, i: nat)
    requires UniqueEntryKeys(es) && i < |es|
    ensures AssignAll(m, es[..i + 1]) == Assign(AssignAll(m, es[..i]), es[i].0, es[i].1)
    ensures EntryKeys(es)[i] == es[i].0 && es[i].0 !in EntryKeys(es)[..i]
    ensures es[i].0 in ValuedKeys(es) <==> es[i].1.Some?
    ensures RemovesNone(m, es) && es[i].1.None? ==> es[i].0 !in AssignAll(m, es[..i])
    ensures NoNulls(es) && m == EntryMap(es) ==> es[i].0 in m && m[es[i].0] == es[i].1 && es[i].1.Some?
  {
    assert es[..i + 1][..i] == es[..i];
    assert forall j :: 0 <= j < i ==> EntryKeys(es[..i])[j] == es[j].0;
    if RemovesNone(m, es) && es[i].1.None? {
      AssignAllOutside(m, es[..i], es[i].0);
    }
    if NoNulls(es) && m == EntryMap(es) {
      EntryMapAt(es, i);
    }
  }

  /** `cur` is `start` followed by entries whose keys are `added`, in order. */
  predicate Extends(start: seq<Range>, cur: seq<Range>, added: seq<string>)
  {
    |start| <= |cur| && cur[..|start|] == start && KeysOf(cur[|start|..]) == added
  }

  /** The keys held by `start` followed by entries with keys `added`. */
  lemma ExtendedKeys(start: seq<Range>, cur: seq<Range>, added: seq<string>)
    requires Extends(start, cur, added)
    ensures forall k :: k in KeySet(cur) <==> k in KeysOf(start) || k in added
  {
    KeySetIsKeysOf(cur);
    assert KeysOf(cur) == KeysOf(start) + added;
  }

  /**
   * One step of the first loop of `set` when it removes nothing: `start` is
   * followed by the new keys of `ks[..i]` in mapping order, and `setRange`
   * for the key `ks[i]`, named nowhere before, either leaves the list alone
   * (the key is held) or appends it; afterwards `start` is followed by the
   * new keys of `ks[..i + 1]`.
   */
  lemma OrderStep(start: seq<Range>, prev: seq<Range>, cur: seq<Range>, ks: seq<string>, i: nat)
    requires i < |ks| && ks[i] !in ks[..i]
    requires Extends(start, prev, KeyDiff(ks[..i], KeysOf(start)))
    requires ks[i] in KeySet(prev) ==> cur == prev
    requires ks[i] !in KeySet(prev) ==>
      |cur| == |prev| + 1 && cur[..|prev|] == prev && cur[|prev|].rangeKey == ks[i]
    ensures Extends(start, cur, KeyDiff(ks[..i + 1], KeysOf(start)))
  {
    var k := ks[i];
    assert ks[..i + 1] == ks[..i] + [k];
    KeyDiffSnoc(ks[..i], k, KeysOf(start));
    ExtendedKeys(start, prev, KeyDiff(ks[..i], KeysOf(start)));
    if k !in KeySet(prev) {
      AppendKey(start, prev, cur);
    }
  }

  /** Appending one entry after `start` and what follows it extends the keys that follow. */
  lemma AppendKey(start: seq<Range>, prev: seq<Range>, cur: seq<Range>)
    requires |start| <= |prev| && prev[..|start|] == start
    requires |cur| == |prev| + 1 && cur[..|prev|] == prev
    ensures cur[..|start|] == start
    ensures KeysOf(cur[|start|..]) == KeysOf(prev[|start|..]) + [cur[|prev|].rangeKey]
  {
    assert cur[|start|..] == prev[|start|..] + [cur[|prev|]];
  }

  lemma KeysInSnoc(ks: seq<string>, j: nat)
    requires j < |ks|
    ensures KeysIn(ks[..j + 1]) == KeysIn(ks[..j]) + {ks[j]}
  {
    assert ks[..j + 1] == ks[..j] + [ks[j]];
  }

  lemma DropOneMore(m: ValueView, gone: set<string>, k: string)
    ensures m - gone - {k} == m - (gone + {k})
  {
  }
}

=== FILE: config_text.dfy ===
/**
 * The text `toConfigString` renders: a `ranges = { ... }` block with one
 * line per entry, key and value each passed through the configuration
 * helper's string escaping, which is kept abstract as `render`.
 */
module ConfigText {
  import opened Wrappers
  import opened RangeEntry

  const Header: string := "    ranges = {\n"
  const Footer: string := "    }\n"

  /**
   * One entry line: indent, escaped key, tab, `= `, escaped value. The
   * escaper receives the key as a string and the value as it is, null
   * included, so it is applied to an `Option<string>`.
   */
  function EntryLine(e: Entry, render: Option<string> -> string): string
  {
    "        " + render(Some(e.0)) + "\t= " + render(e.1) + "\n"
  }

  function EntryLines(es: seq<Entry>, render: Option<string> -> string): string
  {
    if es == [] then "" else EntryLines(es[..|es| - 1], render) + EntryLine(es[|es| - 1], render)
  }

  /** One more entry puts its line after the lines of the entries before it. */
  lemma BlockSnoc(es: seq<Entry>, e: Entry, render: Option<string> -> string)
    ensures Header + EntryLines(es + [e], render) == Header + EntryLines(es, render) + EntryLine(e, render)
  {
    assert (es + [e])[..|es|] == es;
  }

  /**
   * The whole block for the entries `es` of a parent. Only an empty template
   * renders as nothing; an empty object still gets an empty block.
   */
  function ConfigText(isTemplate: bool, es: seq<Entry>, render: Option<string> -> string): (text: string)
    ensures text == "" <==> es == [] && isTemplate
    ensures es == [] && !isTemplate ==> text == "    ranges = {\n    }\n"
  {
    if es == [] && isTemplate then "" else Header + EntryLines(es, render) + Footer
  }

  /** How often `c` occurs in `s`. */
  function Occurrences(s: string, c: char): nat
  {
    if s == [] then 0 else (if s[0] == c then 1 else 0) + Occurrences(s[1..], c)
  }

  lemma {:induction false} OccurrencesAppend(a: string, b: string, c: char)
    ensures Occurrences(a + b, c) == Occurrences(a, c) + Occurrences(b, c)
  {
    if a != [] {
      OccurrencesAppend(a[1..], b, c);
      assert (a + b)[1..] == a[1..] + b;
    } else {
      assert a + b == b;
    }
  }

  lemma EntryLineCount(e: Entry, render: Option<string> -> string)
    requires '\n' !in render(Some(e.0)) && '\n' !in render(e.1)
    ensures Occurrences(EntryLine(e, render), '\n') == 1
  {
    var k, v := render(Some(e.0)), render(e.1);
    NoOccurrences(k, '\n');
    NoOccurrences(v, '\n');
    OccurrencesAppend("        " + k + "\t= " + v, "\n", '\n');
    OccurrencesAppend("        " + k + "\t= ", v, '\n');
    OccurrencesAppend("        " + k, "\t= ", '\n');
    OccurrencesAppend("        ", k, '\n');
  }

  lemma {:induction false} NoOccurrences(s: string, c: char)
    requires c !in s
    ensures Occurrences(s, c) == 0
  {
    if s != [] {
      NoOccurrences(s[1..], c);
    }
  }

  /**
   * When the escaper never produces a line break, a rendered block has
   * exactly one line per entry plus the opening and closing lines.
   */
  lemma ConfigTextLineCount(isTemplate: bool, es: seq<Entry>, render: Option<string> -> string)
    requires forall s :: '\n' !in render(s)
    requires !(es == [] && isTemplate)
    ensures Occurrences(ConfigText(isTemplate, es, render), '\n') == |es| + 2
  {
    var body := EntryLines(es, render);
    EntryLinesCount(es, render);
    HeaderFooterCount();
    OccurrencesAppend(Header + body, Footer, '\n');
    OccurrencesAppend(Header, body, '\n');
    assert ConfigText(isTemplate, es, render) == Header + body + Footer;
  }

  lemma HeaderFooterCount()
    ensures Occurrences(Header, '\n') == 1 && Occurrences(Footer, '\n') == 1
  {
    HeaderIsOneLine();
    FooterIsOneLine();
  }

  lemma HeaderIsOneLine()
    ensures Occurrences(Header, '\n') == 1
  {
    assert Header == "    ranges = {" + "\n";
    OneLine("    ranges = {");
  }

  lemma FooterIsOneLine()
    ensures Occurrences(Footer, '\n') == 1
  {
    assert Footer == "    }" + "\n";
    OneLine("    }");
  }

  lemma OneLine(s: string)
    requires '\n' !in s
    ensures Occurrences(s + "\n", '\n') == 1
  {
    NoOccurrences(s, '\n');
    OccurrencesAppend(s, "\n", '\n');
  }

  lemma {:induction false} EntryLinesCount(es: seq<Entry>, render: Option<string> -> string)
    requires forall s :: '\n' !in render(s)
    ensures Occurrences(EntryLines(es, render), '\n') == |es|
  {
    if es != [] {
      var init := es[..|es| - 1];
      EntryLinesCount(init, render);
      EntryLineCount(es[|es| - 1], render);
      OccurrencesAppend(EntryLines(init, render), EntryLine(es[|es| - 1], render), '\n');
    }
  }
}

=== FILE: downtime_ranges.dfy ===
/**
 * The collection of scheduled downtime ranges attached to one scheduled
 * downtime object: a working set of range entries, the snapshot taken when
 * they were loaded or last stored, a modification flag, and a key index with
 * an iterator cursor.
 */
module DowntimeRanges {
  import opened Wrappers
  import opened KeyOrder
  import opened RangeEntry
  import opened Assignment
  import opened ConfigText

  class ScheduledDowntimeRanges {
    /** The entries as loaded or last stored; shares entries with `ranges` after a store. */
    var storedRanges: seq<Range>
    /** The working set, in PHP array order. */
    var ranges: seq<Range>
    var modified: bool
    const owner: Parent
    /** Iterator cursor into `idx`. */
    var position: nat
    /** The key index the iterator walks; rebuilt only by `remove` and `clear`. */
    var idx: seq<string>

    ghost predicate Valid()
      reads this`ranges, this`storedRanges, this`idx
    {
      && UniqueKeys(ranges)
      && UniqueKeys(storedRanges)
      && StrictlyAscending(idx)
      && (forall k :: k in idx ==> k in KeySet(ranges))
    }

    /** The key → value view of the working set. */
    ghost function Values(): ValueView
      requires Valid()
      reads this`ranges, this`storedRanges, this`idx, ranges
    {
      ValueMap(ranges)
    }

    constructor (owner: Parent)
      ensures Valid() && this.owner == owner
      ensures ranges == [] && storedRanges == [] && !modified
      ensures idx == [] && position == 0
    {
      this.owner := owner;
      storedRanges, ranges, modified := [], [], false;
      position, idx := 0, [];
    }

    /**
     * `loadForStoredObject`: the entries are the given rows (the parent's
     * rows, as the query returns them) and the snapshot holds a clone of each.
     * The key index is left empty.
     */
    constructor LoadForStoredObject(owner: Parent, rows: seq<Row>)
      requires forall i, j :: 0 <= i < j < |rows| ==> rows[i].key != rows[j].key
      ensures Valid() && this.owner == owner
      ensures |ranges| == |rows| == |storedRanges|
      ensures forall j :: 0 <= j < |rows| ==>
        && ranges[j].scheduledDowntimeId == rows[j].downtimeId
        && ranges[j].rangeKey == rows[j].key
        && ranges[j].rangeValue == rows[j].value
      ensures forall j :: 0 <= j < |rows| ==>
        && storedRanges[j].scheduledDowntimeId == rows[j].downtimeId
        && storedRanges[j].rangeKey == rows[j].key
        && storedRanges[j].rangeValue == rows[j].value
      ensures forall r :: r in ranges ==> fresh(r) && r !in storedRanges
      ensures forall r :: r in storedRanges ==> fresh(r)
      ensures !modified && idx == [] && position == 0
    {
      var loaded: seq<Range> := [];
      for i := 0 to |rows|
        invariant |loaded| == i
        invariant forall r :: r in loaded ==> fresh(r)
        invariant forall j :: 0 <= j < i ==>
          && loaded[j].scheduledDowntimeId == rows[j].downtimeId
          && loaded[j].rangeKey == rows[j].key
          && loaded[j].rangeValue == rows[j].value
      {
        var r := new Range(rows[i].downtimeId, rows[i].key, rows[i].value);
        loaded := loaded + [r];
      }
      var copies: seq<Range> := [];
      for i := 0 to |loaded|
        invariant |copies| == i
        invariant forall r :: r in copies ==> fresh(r) && r !in loaded
        invariant forall j :: 0 <= j < |rows| ==>
          && loaded[j].scheduledDowntimeId == rows[j].downtimeId
          && loaded[j].rangeKey == rows[j].key
          && loaded[j].rangeValue == rows[j].value
        invariant forall j :: 0 <= j < i ==>
          && copies[j].scheduledDowntimeId == rows[j].downtimeId
          && copies[j].rangeKey == rows[j].key
          && copies[j].rangeValue == rows[j].value
      {
        var c := loaded[i].Clone();
        copies := copies + [c];
      }
      this.owner := owner;
      ranges, storedRanges, modified := loaded, copies, false;
      position, idx := 0, [];
    }

    /** `count`: the number of range keys held. */
    function Count(): (n: nat)
      requires Valid()
      reads this`ranges, this`storedRanges, this`idx
      ensures n == |KeySet(ranges)|
    {
      UniqueKeySetSize(ranges);
      |ranges|
    }

    /** `hasBeenModified`: whether the working set was changed since loading. */
    function HasBeenModified(): (b: bool)
      reads this`modified
      ensures b <==> modified
    {
      modified
    }

    /** `get`: the entry for `k`, or null when there is none. */
    function Get(k: string): (r: Range?)
      reads this`ranges
      ensures r == null <==> k !in KeySet(ranges)
      ensures r != null ==> r in ranges && r.rangeKey == k
    {
      match Find(ranges, k)
      case None => null
      case Some(i) => ranges[i]
    }

    /** `__isset`: whether the working set holds key `k`. */
    function IsSet(k: string): (b: bool)
      reads this`ranges
      ensures b <==> Get(k) != null
      ensures b <==> exists r :: r in ranges && r.rangeKey == k
    {
      Find(ranges, k).Some?
    }

    /** `getValues`: key and value of every working entry, in array order. */
    method GetValues() returns (values: seq<Entry>)
      ensures values == ValuesOf(ranges)
    {
      values := [];
      for i := 0 to |ranges|
        invariant values == ValuesOf(ranges[..i])
      {
        assert ranges[..i + 1][..i] == ranges[..i];
        values := values + [(ranges[i].rangeKey, ranges[i].rangeValue)];
      }
      assert ranges[..|ranges|] == ranges;
    }

    /** `getOriginalValues`: the same, for the stored snapshot. */
    method GetOriginalValues() returns (values: seq<Entry>)
      ensures values == ValuesOf(storedRanges)
    {
      values := [];
      for i := 0 to |storedRanges|
        invariant values == ValuesOf(storedRanges[..i])
      {
        assert storedRanges[..i + 1][..i] == storedRanges[..i];
        values := values + [(storedRanges[i].rangeKey, storedRanges[i].rangeValue)];
      }
      assert storedRanges[..|storedRanges|] == storedRanges;
    }

    /** `listRangesNames`: the keys in array order, each once. */
    function ListRangesNames(): (names: seq<string>)
      requires Valid()
      reads this`ranges, this`storedRanges, this`idx
      ensures |names| == |ranges|
      ensures forall i :: 0 <= i < |ranges| ==> names[i] == ranges[i].rangeKey
      ensures forall i, j :: 0 <= i < j < |names| ==> names[i] != names[j]
    {
      KeysOf(ranges)
    }

    /**
     * `setRange`: null for a present key removes it; the same value changes
     * nothing; another value is written into the entry in place; an absent
     * key gets a new entry, appended, without touching the key index.
     */
    method SetRange(k: string, v: Option<string>)
      requires Valid()
      modifies this`ranges, this`idx, this`modified, (set r | r in ranges && r.rangeKey == k && v.Some?)`rangeValue
      ensures Valid()
      ensures Values() == Assign(old(Values()), k, v)
      ensures modified == (old(modified) || Values() != old(Values()))
      ensures forall r :: r in ranges ==> r in old(ranges) || fresh(r)
      ensures forall r :: r in old(ranges) && r.rangeKey != k ==> r in ranges
      ensures forall r :: r in old(ranges) ==> unchanged(r) || r in ranges
      ensures v.None? && k in old(KeySet(ranges)) ==>
        && UniqueKeys(Without(old(ranges), k))
        && ranges == KSort(Without(old(ranges), k))
        && SortedByKey(ranges) && idx == KeysOf(ranges)
        && forall r :: r in old(ranges) ==> unchanged(r)
      ensures v.Some? && k in old(KeySet(ranges)) ==> ranges == old(ranges) && idx == old(idx)
      ensures forall r :: r in old(ranges) ==> r.scheduledDowntimeId == old(r.scheduledDowntimeId)
      ensures forall r :: r in ranges && r !in old(ranges) ==> r.scheduledDowntimeId == owner.id
      ensures k !in old(KeySet(ranges)) ==>
        && |ranges| == |old(ranges)| + 1
        && ranges[..|old(ranges)|] == old(ranges)
        && fresh(ranges[|old(ranges)|])
        && ranges[|old(ranges)|].rangeKey == k
        && ranges[|old(ranges)|].rangeValue == v
        && ranges[|old(ranges)|].scheduledDowntimeId == owner.id
        && idx == old(idx)
    {
      ghost var m0 := Values();
      ValueMapAt(ranges);
      var at := Find(ranges, k);
      if v.None? && at.Some? {
        Remove(k);
        assert Values() == m0 - {k} == Assign(m0, k, v);
        assert k in m0 && k !in Values();
      } else if at.Some? {
        if ranges[at.value].rangeValue == v {
          AssignSame(m0, k, v);
        } else {
          Overwrite(at.value, v);
          assert Values() == m0[k := v] == Assign(m0, k, v);
          assert Values()[k] != m0[k];
        }
      } else {
        Append(k, v);
        assert Values() == m0[k := v] == Assign(m0, k, v);
        assert k in Values() && k !in m0;
      }
    }

    /** The in-place branch of `setRange`: entry `i` takes value `v`. */
    method Overwrite(i: nat, v: Option<string>)
      requires Valid() && i < |ranges|
      modifies {ranges[i]}`rangeValue, this`modified
      ensures Valid() && modified
      ensures ranges[i].rangeValue == v
      ensures forall r :: r in old(ranges) ==> r.scheduledDowntimeId == old(r.scheduledDowntimeId)
      ensures Values() == old(Values())[ranges[i].rangeKey := v]
    {
      ghost var m0 := Values();
      ValueMapAt(ranges);
      var r := ranges[i];
      r.rangeValue := v;
      modified := true;
      forall x | x in ranges
        ensures m0[r.rangeKey := v][x.rangeKey] == x.rangeValue
      {
        if x != r {
          assert x.rangeKey != r.rangeKey;
        }
      }
      ValueMapPointwise(ranges, m0[r.rangeKey := v]);
    }

    /** The new-entry branch of `setRange`: append an entry for `k`. */
    method Append(k: string, v: Option<string>)
      requires Valid() && k !in KeySet(ranges)
      modifies this`ranges, this`modified
      ensures Valid() && modified
      ensures |ranges| == |old(ranges)| + 1 && ranges[..|old(ranges)|] == old(ranges)
      ensures fresh(ranges[|old(ranges)|])
      ensures ranges[|old(ranges)|].rangeKey == k && ranges[|old(ranges)|].rangeValue == v
      ensures ranges[|old(ranges)|].scheduledDowntimeId == owner.id
      ensures Values() == old(Values())[k := v]
    {
      var r := new Range(owner.id, k, v);
      ValueMapFrame(ranges);
      ValueMapAppend(ranges, r);
      ranges := ranges + [r];
      modified := true;
      assert forall x :: x in idx ==> x in KeySet(ranges) by {
        assert forall x :: x in old(KeySet(ranges)) ==> x in KeySet(ranges);
      }
    }

    /**
     * `set`: `setRange` for every given entry, then `remove` for every held
     * key the mapping does not name.
     */
    method Set(entries: seq<Entry>)
      requires Valid()
      requires UniqueEntryKeys(entries)
      modifies this`ranges, this`idx, this`modified, (set r | r in ranges && r.rangeKey in ValuedKeys(entries))`rangeValue
      ensures Valid()
      ensures Values() == Replace(old(Values()), entries)
      ensures old(modified) ==> modified
      ensures Values() != old(Values()) ==> modified
      ensures NoNulls(entries) && old(Values()) == EntryMap(entries) ==>
        && ranges == old(ranges) && idx == old(idx) && modified == old(modified)
        && forall r :: r in ranges ==> r.rangeValue == old(r.rangeValue)
      ensures (exists k :: k in old(Values()) && k !in EntryKeys(entries)) ==>
        SortedByKey(ranges) && idx == KeysOf(ranges)
      ensures forall r :: r in ranges ==> r in old(ranges) || fresh(r)
      ensures forall r :: r in old(ranges) && r !in ranges ==> r.rangeKey !in ValuedKeys(entries)
      ensures forall r :: r in old(ranges) && r.rangeKey !in ValuedKeys(entries) ==> unchanged(r)
      ensures forall r :: r in ranges && r !in old(ranges) ==> r.scheduledDowntimeId == owner.id
      ensures RemovesNone(old(Values()), entries) && (forall k :: k in old(Values()) ==> k in EntryKeys(entries)) ==>
        Extends(old(ranges), ranges, KeyDiff(EntryKeys(entries), KeysOf(old(ranges)))) && idx == old(idx)
    {
      ghost var m0 := Values();
      ghost var before := ranges;
      SetEach(entries);
      if k :| k in m0 && k !in EntryKeys(entries) {
        // a held key the mapping does not name survives the first loop
        AssignAllOutside(m0, entries, k);
      } else {
        AssignAllNamed(m0, entries);
      }
      ghost var same := NoNulls(entries) && m0 == EntryMap(entries);
      if same {
        EntryMapKeys(entries);
      }
      ghost var mid := ranges;
      label firstLoop:
      RemoveUnnamed(entries, before);
      forall r | r in ranges && r !in before
        ensures r.scheduledDowntimeId == owner.id
      {
        assert r in mid;
        assert r.scheduledDowntimeId == old@firstLoop(r.scheduledDowntimeId);
      }
      if same {
        ReplaceNoNulls(m0, entries);
        ValueMapUnframe(ranges);
      }
    }

    /**
     * The second half of `set`: `array_diff` of the held keys against the
     * keys of the mapping, then `remove` for each key it reports. No entry
     * is written. The ghost `earlier` has no counterpart in the code: it lets
     * a caller name entries (such as ones already dropped from the list) for
     * which it needs that fact stated, and they stay as they were.
     */
    method RemoveUnnamed(entries: seq<Entry>, ghost earlier: seq<Range>)
      requires Valid()
      modifies this`ranges, this`idx, this`modified
      ensures Valid()
      ensures Values() == KeepNamed(old(Values()), entries)
      ensures forall r :: r in ranges <==> r in old(ranges) && r.rangeKey in EntryKeys(entries)
      ensures (forall k :: k in old(Values()) ==> k in EntryKeys(entries)) ==>
        && ranges == old(ranges) && idx == old(idx) && modified == old(modified)
        && Values() == old(Values())
      ensures (exists k :: k in old(Values()) && k !in EntryKeys(entries)) ==>
        modified && SortedByKey(ranges) && idx == KeysOf(ranges)
      ensures forall r :: r in earlier ==> unchanged(r)
    {
      ValueMapAt(ranges);
      KeySetIsKeysOf(ranges);
      KeepNamedByDiff(Values(), entries, KeysOf(ranges));
      var toDelete := KeyDiff(KeysOf(ranges), EntryKeys(entries));
      if forall k :: k in Values() ==> k in EntryKeys(entries) {
        KeyDiffAllKept(KeysOf(ranges), EntryKeys(entries));
      }
      if k :| k in Values() && k !in EntryKeys(entries) {
        assert k in toDelete;
      }
      RemoveEach(toDelete, earlier);
    }

    /** The first loop of `set`: `setRange` for each entry, in order. */
    method SetEach(entries: seq<Entry>)
      requires Valid()
      requires UniqueEntryKeys(entries)
      modifies this`ranges, this`idx, this`modified, (set r | r in ranges && r.rangeKey in ValuedKeys(entries))`rangeValue
      ensures Valid()
      ensures Values() == AssignAll(old(Values()), entries)
      ensures old(modified) ==> modified
      ensures Values() != old(Values()) ==> modified
      ensures NoNulls(entries) && old(Values()) == EntryMap(entries) ==>
        ranges == old(ranges) && idx == old(idx) && modified == old(modified)
      ensures RemovesNone(old(Values()), entries) ==>
        Extends(old(ranges), ranges, KeyDiff(EntryKeys(entries), KeysOf(old(ranges)))) && idx == old(idx)
      ensures forall r :: r in ranges ==> r in old(ranges) || fresh(r)
      ensures forall r :: r in old(ranges) && r.rangeKey !in EntryKeys(entries) ==> r in ranges
      ensures forall r :: r in old(ranges) && r !in ranges ==> r.rangeKey !in ValuedKeys(entries)
      ensures forall r :: r in old(ranges) && r.rangeKey !in ValuedKeys(entries) ==> unchanged(r)
      ensures forall r :: r in ranges && r !in old(ranges) ==> r.scheduledDowntimeId == owner.id
    {
      ghost var m0 := Values();
      ghost var same := NoNulls(entries) && m0 == EntryMap(entries);
      ghost var keeps := RemovesNone(m0, entries);
      ghost var ks := EntryKeys(entries);
      for i := 0 to |entries|
        invariant Valid()
        invariant Values() == AssignAll(m0, entries[..i])
        invariant forall r :: r in ranges ==> r in old(ranges) || fresh(r)
        invariant forall r :: r in old(ranges) && r.rangeKey !in ks ==> r in ranges
        invariant forall r :: r in old(ranges) && r !in ranges ==> r.rangeKey !in ValuedKeys(entries)
        invariant forall r :: r in old(ranges) && r.rangeKey !in ValuedKeys(entries) ==> unchanged(r)
        invariant forall r :: r in ranges && r !in old(ranges) ==> r.scheduledDowntimeId == owner.id
        invariant old(modified) ==> modified
        invariant Values() != m0 ==> modified
        invariant same ==>
          Values() == m0 && ranges == old(ranges) && idx == old(idx) && modified == old(modified)
        invariant keeps ==> Extends(old(ranges), ranges, KeyDiff(ks[..i], KeysOf(old(ranges)))) && idx == old(idx)
      {
        SetEntry(entries, i, m0, old(ranges), same, keeps);
      }
      assert entries[..|entries|] == entries && ks[..|entries|] == ks;
    }

    /**
     * One pass of the first loop of `set`, `setRange` for entry `i`, stated
     * against the view `m0` and the list `start` the loop began with. The
     * ghost flags say that the mapping already is the view without nulls
     * (`same`) or that no null value names a held key (`keeps`).
     */
    method SetEntry(entries: seq<Entry>, i: nat,
                    ghost m0: ValueView, ghost start: seq<Range>, ghost same: bool, ghost keeps: bool)
      requires Valid()
      requires UniqueEntryKeys(entries) && i < |entries|
      requires Values() == AssignAll(m0, entries[..i])
      requires same ==> NoNulls(entries) && m0 == EntryMap(entries) && Values() == m0
      requires keeps ==> RemovesNone(m0, entries)
      requires keeps ==> Extends(start, ranges, KeyDiff(EntryKeys(entries)[..i], KeysOf(start)))
      requires forall r :: r in ranges && r !in start ==> r.scheduledDowntimeId == owner.id
      modifies this`ranges, this`idx, this`modified
      modifies (set r | r in ranges && r.rangeKey in ValuedKeys(entries))`rangeValue
      ensures Valid()
      ensures Values() == AssignAll(m0, entries[..i + 1])
      ensures modified == (old(modified) || Values() != old(Values()))
      ensures same ==> Values() == m0 && ranges == old(ranges) && idx == old(idx) && modified == old(modified)
      ensures keeps ==> Extends(start, ranges, KeyDiff(EntryKeys(entries)[..i + 1], KeysOf(start))) && idx == old(idx)
      ensures forall r :: r in ranges ==> r in old(ranges) || fresh(r)
      ensures forall r :: r in old(ranges) && r.rangeKey !in EntryKeys(entries) ==> r in ranges
      ensures forall r :: r in old(ranges) && r !in ranges ==> r.rangeKey !in ValuedKeys(entries)
      ensures forall r :: r in ranges && r !in start ==> r.scheduledDowntimeId == owner.id
      ensures entries[i].1.None? && entries[i].0 in old(KeySet(ranges)) ==>
        && UniqueKeys(Without(old(ranges), entries[i].0))
        && ranges == KSort(Without(old(ranges), entries[i].0))
        && SortedByKey(ranges) && idx == KeysOf(ranges)
      ensures entries[i].1.Some? && entries[i].0 in old(KeySet(ranges)) ==> ranges == old(ranges) && idx == old(idx)
      ensures entries[i].0 !in old(KeySet(ranges)) ==>
        && |ranges| == |old(ranges)| + 1
        && ranges[..|old(ranges)|] == old(ranges)
        && fresh(ranges[|old(ranges)|])
        && ranges[|old(ranges)|].rangeKey == entries[i].0
        && ranges[|old(ranges)|].rangeValue == entries[i].1
        && idx == old(idx)
    {
      var k, v := entries[i].0, entries[i].1;
      ghost var prev := ranges;
      EntryStep(m0, entries, i);
      ValueMapAt(ranges);
      if same {
        AssignSame(m0, k, v);
      }
      SetRange(k, v);
      if keeps {
        OrderStep(start, prev, ranges, EntryKeys(entries), i);
      }
    }

    /**
     * The second loop of `set`: `remove` for each listed key, in order,
     * writing no entry. As in `RemoveUnnamed`, the ghost `earlier` only names
     * the entries for which the caller needs that fact; they stay as they
     * were.
     */
    method RemoveEach(keys: seq<string>, ghost earlier: seq<Range>)
      requires Valid()
      modifies this`ranges, this`idx, this`modified
      ensures Valid()
      ensures Values() == old(Values()) - KeysIn(keys)
      ensures forall r :: r in ranges <==> r in old(ranges) && r.rangeKey !in keys
      ensures modified == (old(modified) || keys != [])
      ensures keys == [] ==> ranges == old(ranges) && idx == old(idx) && Values() == old(Values())
      ensures keys != [] ==> SortedByKey(ranges) && idx == KeysOf(ranges)
      ensures forall r :: r in earlier ==> unchanged(r)
    {
      ghost var m0 := Values();
      for j := 0 to |keys|
        invariant Valid()
        invariant Values() == m0 - KeysIn(keys[..j])
        invariant forall r :: r in ranges <==> r in old(ranges) && r.rangeKey !in keys[..j]
        invariant modified == (old(modified) || j > 0)
        invariant j == 0 ==> ranges == old(ranges) && idx == old(idx) && Values() == m0
        invariant j > 0 ==> SortedByKey(ranges) && idx == KeysOf(ranges)
      {
        KeysInSnoc(keys, j);
        DropOneMore(m0, KeysIn(keys[..j]), keys[j]);
        Remove(keys[j]);
      }
      assert keys[..|keys|] == keys;
    }

    /** `remove`: drop `k` if present, mark modified, re-sort and re-index. */
    method Remove(k: string)
      requires Valid()
      modifies this`ranges, this`idx, this`modified
      ensures UniqueKeys(Without(old(ranges), k))
      ensures ranges == KSort(Without(old(ranges), k))
      ensures Valid() && modified
      ensures SortedByKey(ranges) && idx == KeysOf(ranges)
      ensures Values() == old(Values()) - {k}
      ensures forall r :: r in ranges <==> r in old(ranges) && r.rangeKey != k
      ensures forall r :: r in old(ranges) ==> unchanged(r)
    {
      SortedWithoutView(ranges, k);
      ghost var target := KSort(Without(ranges, k));
      // dropping an absent key leaves the list as it is
      ranges := Without(ranges, k);
      modified := true;
      RefreshIndex();
      ValueMapFrame(target);
    }

    /** `clear`: no entries, marked modified, empty index. */
    method Clear()
      requires Valid()
      modifies this`ranges, this`idx, this`modified
      ensures Valid()
      ensures ranges == [] && idx == [] && modified
    {
      ranges := [];
      modified := true;
      RefreshIndex();
    }

    /** `refreshIndex`: `ksort` the working set and index its keys. */
    method RefreshIndex()
      requires UniqueKeys(ranges) && UniqueKeys(storedRanges)
      modifies this`ranges, this`idx
      ensures Valid()
      ensures ranges == KSort(old(ranges)) && SortedByKey(ranges)
      ensures idx == KeysOf(ranges)
    {
      ranges := KSort(ranges);
      idx := KeysOf(ranges);
      SortedKeys(ranges);
      KeySetIsKeysOf(ranges);
    }

    method Rewind()
      modifies this`position
      ensures position == 0
    {
      position := 0;
    }

    /** `valid`: the cursor stands on an indexed entry. */
    function ValidPosition(): (b: bool)
      requires Valid()
      reads this`ranges, this`storedRanges, this`idx, this`position
      ensures b <==> Current() != null
    {
      position < |idx|
    }

    /** `current`: the entry under the cursor, or null past the end. */
    function Current(): (r: Range?)
      requires Valid()
      reads this`ranges, this`storedRanges, this`idx, this`position
      ensures r != null <==> position < |idx|
      ensures r != null ==> r in ranges && r.rangeKey == idx[position]
    {
      if position < |idx| then Get(idx[position]) else null
    }

    /** `key`: the indexed key under the cursor, or null past the end. */
    function Key(): (k: Option<string>)
      requires Valid()
      reads this`ranges, this`storedRanges, this`idx, this`position
      ensures k.Some? <==> position < |idx|
      ensures k.Some? ==> k.value == idx[position] && k.value in KeySet(ranges)
    {
      if position < |idx| then Some(idx[position]) else None
    }

    method Next()
      modifies this`position
      ensures position == old(position) + 1
    {
      position := position + 1;
    }

    /**
     * `store`: stamp every working entry with the parent's id and write it,
     * delete every stored entry whose key is gone, and make the working set
     * the new snapshot: a copy of the list that holds the same entry objects.
     */
    method Store() returns (ok: bool, upserts: seq<Row>, deletes: seq<Delete>)
      requires Valid()
      modifies this`storedRanges, ranges
      ensures Valid()
      ensures ok
      ensures ranges == old(ranges) && storedRanges == ranges
      ensures forall r :: r in ranges ==> r.scheduledDowntimeId == owner.id && r.rangeValue == old(r.rangeValue)
      ensures |upserts| == |ranges|
      ensures forall j :: 0 <= j < |ranges| ==>
        upserts[j] == Row(owner.id, ranges[j].rangeKey, ranges[j].rangeValue)
      ensures deletes == DeletesFor(old(storedRanges), KeysOf(ranges))
    {
      upserts := [];
      for i := 0 to |ranges|
        invariant storedRanges == old(storedRanges)
        invariant |upserts| == i
        invariant forall j :: 0 <= j < i ==> ranges[j].scheduledDowntimeId == owner.id
        invariant forall j :: 0 <= j < i ==>
          upserts[j] == Row(owner.id, ranges[j].rangeKey, ranges[j].rangeValue)
        invariant forall r :: r in ranges ==> r.rangeValue == old(r.rangeValue)
      {
        var r := ranges[i];
        r.scheduledDowntimeId := owner.id;
        upserts := upserts + [Row(r.scheduledDowntimeId, r.rangeKey, r.rangeValue)];
      }
      deletes := CollectDeletes(storedRanges, KeysOf(ranges));
      storedRanges := ranges;
      ok := true;
    }

    /** `toConfigString`, with the configuration helper's escaping as `render`. */
    method ToConfigString(render: Option<string> -> string) returns (text: string)
      ensures text == ConfigText.ConfigText(owner.isTemplate, ValuesOf(ranges), render)
    {
      if |ranges| == 0 && owner.isTemplate {
        return "";
      }
      text := "    ranges = {\n";
      for i := 0 to |ranges|
        invariant text == Header + EntryLines(ValuesOf(ranges[..i]), render)
      {
        var r := ranges[i];
        ValuesOfSnoc(ranges, i);
        BlockSnoc(ValuesOf(ranges[..i]), (r.rangeKey, r.rangeValue), render);
        text := text + EntryLine((r.rangeKey, r.rangeValue), render);
      }
      assert ranges[..|ranges|] == ranges;
      text := text + "    }\n";
    }

    /** `toLegacyConfigString`: ranges have no legacy configuration form. */
    function ToLegacyConfigString(): (text: string)
      ensures |text| == 0
    {
      ""
    }

    /** `getRangeTableName`: the parent's table name with `_range` appended. */
    function GetRangeTableName(): (name: string)
      ensures |name| == |owner.tableName| + 6
      ensures name[..|owner.tableName|] == owner.tableName
      ensures name[|owner.tableName|..] == "_range"
    {
      owner.tableName + "_range"
    }
  }

  /**
   * The delete loop of `store`: for each stored entry, in stored order, whose
   * key `array_diff` finds missing from the kept keys, a delete of that row.
   */
  method CollectDeletes(stored: seq<Range>, keep: seq<string>) returns (deletes: seq<Delete>)
    ensures deletes == DeletesFor(stored, keep)
  {
    deletes := [];
    for i := 0 to |stored|
      invariant deletes == DeletesFor(stored[..i], keep)
    {
      var s := stored[i];
      assert stored[..i + 1][..i] == stored[..i];
      if s.rangeKey !in keep {
        deletes := deletes + [Delete(RangeTable, s.scheduledDowntimeId, s.rangeKey)];
      }
    }
    assert stored[..|stored|] == stored;
  }
}

=== FILE: key_order.dfy ===
/**
 * The order in which `ksort` arranges range keys. Keys are strings compared
 * character by character by code point, and a proper prefix comes first,
 * which is how PHP compares two non-numeric string keys.
 */
module KeyOrder {

  /** `a` sorts strictly before `b`. */
  predicate Below(a: string, b: string)
  {
    |b| > 0 && (|a| == 0 || a[0] < b[0] || (a[0] == b[0] && Below(a[1..], b[1..])))
  }

  lemma {:induction false} BelowIrreflexive(a: string)
    ensures !Below(a, a)
  {
    if |a| > 0 {
      BelowIrreflexive(a[1..]);
    }
  }

  lemma {:induction false} BelowTransitive(a: string, b: string, c: string)
    requires Below(a, b) && Below(b, c)
    ensures Below(a, c)
  {
    if |a| > 0 && a[0] == b[0] && b[0] == c[0] && Below(a[1..], b[1..]) && Below(b[1..], c[1..]) {
      BelowTransitive(a[1..], b[1..], c[1..]);
    }
  }

  lemma {:induction false} BelowTotal(a: string, b: string)
    ensures a == b || Below(a, b) || Below(b, a)
  {
    if |a| > 0 && |b| > 0 && a[0] == b[0] {
      BelowTotal(a[1..], b[1..]);
      if a[1..] == b[1..] {
        assert a == [a[0]] + a[1..] && b == [b[0]] + b[1..];
      }
    }
  }

  lemma BelowAsymmetric(a: string, b: string)
    requires Below(a, b)
    ensures !Below(b, a)
  {
    if Below(b, a) {
      BelowTransitive(a, b, a);
      BelowIrreflexive(a);
    }
  }

  /** Every key is strictly below every later key. */
  predicate StrictlyAscending(ks: seq<string>)
  {
    forall i, j :: 0 <= i < j < |ks| ==> Below(ks[i], ks[j])
  }

  /** Two strictly ascending key lists holding the same keys are the same list. */
  lemma {:induction false} AscendingUnique(a: seq<string>, b: seq<string>)
    requires StrictlyAscending(a) && StrictlyAscending(b)
    requires forall k :: k in a <==> k in b
    ensures a == b
  {
    assert a != [] ==> a[0] in b;
    assert b != [] ==> b[0] in a;
    if a != [] && b != [] {
      if a[0] != b[0] {
        assert a[0] in b && b[0] in a;
        var i :| 0 <= i < |a| && a[i] == b[0];
        var j :| 0 <= j < |b| && b[j] == a[0];
        assert Below(a[0], b[0]) by {
          assert 0 < j;
        }
        assert Below(b[0], a[0]) by {
          assert 0 < i;
        }
        BelowAsymmetric(a[0], b[0]);
      }
      forall k
        ensures k in a[1..] <==> k in b[1..]
      {
        if k in a[1..] {
          var i :| 1 <= i < |a| && a[i] == k;
          assert Below(a[0], k);
          BelowIrreflexive(k);
          assert k in b && k != b[0];
          var j :| 0 <= j < |b| && b[j] == k;
          assert b[1..][j - 1] == k;
        }
        if k in b[1..] {
          var j :| 1 <= j < |b| && b[j] == k;
          assert Below(b[0], k);
          BelowIrreflexive(k);
          assert k in a && k != a[0];
          var i :| 0 <= i < |a| && a[i] == k;
          assert a[1..][i - 1] == k;
        }
      }
      AscendingUnique(a[1..], b[1..]);
      assert a == [a[0]] + a[1..] && b == [b[0]] + b[1..];
    }
  }
}

=== FILE: range_entry.dfy ===
/**
 * One scheduled downtime range entry, the parent object it belongs to, and
 * the functions over lists of entries that the collection's contracts are
 * written with: key lists, lookup, removal, `ksort`, and the views that
 * `getValues`, `store` and the delete computation produce.
 */
module RangeEntry {
  import opened Wrappers
  import opened KeyOrder

  /** The table `store` deletes vanished entries from; a fixed name. */
  const RangeTable: string := "icinga_scheduled_downtime_range"

  /** A persisted row: parent id, range key, range value. */
  datatype Row = Row(downtimeId: Option<int>, key: string, value: Option<string>)

  /** A delete issued by `store`: the table and the identity of the stored entry. */
  datatype Delete = Delete(table: string, downtimeId: Option<int>, key: string)

  /** A key with its value, as `getValues` and `set` see them. */
  type Entry = (string, Option<string>)

  /**
   * The parent scheduled downtime: its id (null until the parent is stored,
   * and it may change afterwards), whether it is a template, and its table.
   */
  class Parent {
    var id: Option<int>
    const isTemplate: bool
    const tableName: string

    constructor (id: Option<int>, isTemplate: bool, tableName: string)
      ensures this.id == id && this.isTemplate == isTemplate && this.tableName == tableName
    {
      this.id := id;
      this.isTemplate := isTemplate;
      this.tableName := tableName;
    }
  }

  /** A range entry. Its key never changes once the entry exists. */
  class Range {
    var scheduledDowntimeId: Option<int>
    const rangeKey: string
    var rangeValue: Option<string>

    constructor (downtimeId: Option<int>, key: string, value: Option<string>)
      ensures scheduledDowntimeId == downtimeId && rangeKey == key && rangeValue == value
    {
      scheduledDowntimeId := downtimeId;
      rangeKey := key;
      rangeValue := value;
    }

    /** PHP's `clone`: a new entry with the same fields. */
    method Clone() returns (copy: Range)
      ensures fresh(copy)
      ensures copy.scheduledDowntimeId == scheduledDowntimeId
      ensures copy.rangeKey == rangeKey && copy.rangeValue == rangeValue
    {
      copy := new Range(scheduledDowntimeId, rangeKey, rangeValue);
    }
  }

  /** The keys of a list of entries, in list order (`array_keys`). */
  function KeysOf(rs: seq<Range>): seq<string>
  {
    seq(|rs|, i requires 0 <= i < |rs| => rs[i].rangeKey)
  }

  /** No key occurs twice: the keys of a PHP array. */
  predicate UniqueKeys(rs: seq<Range>)
  {
    forall i, j :: 0 <= i < j < |rs| ==> rs[i].rangeKey != rs[j].rangeKey
  }

  /** The entries are in strictly ascending key order. */
  predicate SortedByKey(rs: seq<Range>)
  {
    forall i, j :: 0 <= i < j < |rs| ==> Below(rs[i].rangeKey, rs[j].rangeKey)
  }

  /** The set of keys held. */
  function KeySet(rs: seq<Range>): set<string>
  {
    set r | r in rs :: r.rangeKey
  }

  /** `array_key_exists`: the position of the entry with key `k`, if any. */
  function Find(rs: seq<Range>, k: string): (i: Option<nat>)
    ensures i.None? <==> k !in KeySet(rs)
    ensures i.Some? ==> i.value < |rs| && rs[i.value].rangeKey == k
  {
    if rs == [] then None
    else if rs[0].rangeKey == k then Some(0)
    else
      assert KeySet(rs) == {rs[0].rangeKey} + KeySet(rs[1..]) by {
        assert rs == [rs[0]] + rs[1..];
      }
      match Find(rs[1..], k)
      case None => None
      case Some(j) => Some(j + 1)
  }

  /** `unset($ranges[$k])`: the list without the entry for `k`, others in order. */
  function Without(rs: seq<Range>, k: string): (t: seq<Range>)
    ensures forall r :: r in t ==> r in rs && r.rangeKey != k
    ensures forall r :: r in rs && r.rangeKey != k ==> r in t
    ensures k !in KeySet(rs) ==> t == rs
  {
    if rs == [] then []
    else
      var rest := Without(rs[1..], k);
      assert rs == [rs[0]] + rs[1..];
      if rs[0].rangeKey == k then rest else [rs[0]] + rest
  }

  /** Removing an entry keeps the keys unique and takes nothing else away. */
  lemma {:induction false} WithoutFacts(rs: seq<Range>, k: string)
    requires UniqueKeys(rs)
    ensures UniqueKeys(Without(rs, k))
    ensures multiset(Without(rs, k)) <= multiset(rs)
  {
    WithoutSubMultiset(rs, k);
    if rs != [] {
      var rest := Without(rs[1..], k);
      UniqueKeysTail(rs);
      WithoutFacts(rs[1..], k);
      if rs[0].rangeKey != k {
        assert rs[0].rangeKey !in KeySet(rest) by {
          forall x | x in rest
            ensures x.rangeKey != rs[0].rangeKey
          {
            var m :| 0 <= m < |rs[1..]| && rs[1..][m] == x;
            assert rs[m + 1] == x;
          }
        }
        ConsUnique(rs[0], rest);
      }
    }
  }

  lemma {:induction false} WithoutSubMultiset(rs: seq<Range>, k: string)
    ensures multiset(Without(rs, k)) <= multiset(rs)
  {
    if rs != [] {
      WithoutSubMultiset(rs[1..], k);
      assert rs == [rs[0]] + rs[1..];
    }
  }

  lemma UniqueKeysTail(rs: seq<Range>)
    requires UniqueKeys(rs) && rs != []
    ensures UniqueKeys(rs[1..])
  {
    forall i, j | 0 <= i < j < |rs[1..]|
      ensures rs[1..][i].rangeKey != rs[1..][j].rangeKey
    {
      assert rs[1..][i] == rs[i + 1] && rs[1..][j] == rs[j + 1];
    }
  }

  /** Keys stay unique with an entry of a new key in front. */
  lemma ConsUnique(x: Range, u: seq<Range>)
    requires UniqueKeys(u) && x.rangeKey !in KeySet(u)
    ensures UniqueKeys([x] + u)
  {
    var t := [x] + u;
    forall i, j | 0 <= i < j < |t|
      ensures t[i].rangeKey != t[j].rangeKey
    {
      if i == 0 {
        assert t[j] == u[j - 1] && t[j] in u;
      } else {
        assert t[i] == u[i - 1] && t[j] == u[j - 1];
      }
    }
  }

  /** `ksort`'s insertion step: place `r` before the first larger key. */
  function InsertByKey(r: Range, s: seq<Range>): seq<Range>
  {
    if s == [] || Below(r.rangeKey, s[0].rangeKey) then [r] + s
    else [s[0]] + InsertByKey(r, s[1..])
  }

  lemma {:induction false} InsertByKeyPermutes(r: Range, s: seq<Range>)
    ensures multiset(InsertByKey(r, s)) == multiset(s) + multiset{r}
  {
    if !(s == [] || Below(r.rangeKey, s[0].rangeKey)) {
      InsertByKeyPermutes(r, s[1..]);
      assert s == [s[0]] + s[1..];
    }
  }

  lemma {:induction false} InsertByKeySorted(r: Range, s: seq<Range>)
    requires SortedByKey(s) && r.rangeKey !in KeySet(s)
    ensures SortedByKey(InsertByKey(r, s))
  {
    if s == [] || Below(r.rangeKey, s[0].rangeKey) {
      forall j | 0 <= j < |s|
        ensures Below(r.rangeKey, s[j].rangeKey)
      {
        if j > 0 {
          BelowTransitive(r.rangeKey, s[0].rangeKey, s[j].rangeKey);
        }
      }
      ConsSorted(r, s);
    } else {
      var s' := s[1..];
      assert SortedByKey(s') by {
        forall i, j | 0 <= i < j < |s'|
          ensures Below(s'[i].rangeKey, s'[j].rangeKey)
        {
          assert s'[i] == s[i + 1] && s'[j] == s[j + 1];
        }
      }
      assert r.rangeKey !in KeySet(s') by {
        assert forall x :: x in s' ==> x in s;
      }
      InsertByKeySorted(r, s');
      HeadBelowInserted(r, s);
      ConsSorted(s[0], InsertByKey(r, s'));
    }
  }

  /** A sorted list stays sorted with an entry below all of it in front. */
  lemma ConsSorted(x: Range, u: seq<Range>)
    requires SortedByKey(u)
    requires forall j :: 0 <= j < |u| ==> Below(x.rangeKey, u[j].rangeKey)
    ensures SortedByKey([x] + u)
  {
    var t := [x] + u;
    forall i, j | 0 <= i < j < |t|
      ensures Below(t[i].rangeKey, t[j].rangeKey)
    {
      if i == 0 {
        assert t[j] == u[j - 1];
      } else {
        assert t[i] == u[i - 1] && t[j] == u[j - 1];
      }
    }
  }

  /** When `r` goes past the head, the head stays below everything after it. */
  lemma HeadBelowInserted(r: Range, s: seq<Range>)
    requires SortedByKey(s) && s != [] && !Below(r.rangeKey, s[0].rangeKey)
    requires r.rangeKey != s[0].rangeKey
    ensures forall j :: 0 <= j < |InsertByKey(r, s[1..])| ==>
      Below(s[0].rangeKey, InsertByKey(r, s[1..])[j].rangeKey)
  {
    var s' := s[1..];
    var u := InsertByKey(r, s');
    InsertByKeyPermutes(r, s');
    BelowTotal(r.rangeKey, s[0].rangeKey);
    forall j | 0 <= j < |u|
      ensures Below(s[0].rangeKey, u[j].rangeKey)
    {
      assert u[j] in multiset(u);
      if u[j] != r {
        assert u[j] in multiset(s');
        var m :| 0 <= m < |s'| && s'[m] == u[j];
        assert s[m + 1] == u[j];
      }
    }
  }

  /** The first entry's key does not occur in any rearrangement of the rest. */
  lemma FirstKeyNotInRest(rs: seq<Range>, rest: seq<Range>)
    requires UniqueKeys(rs) && |rs| > 0
    requires multiset(rest) == multiset(rs[1..])
    ensures rs[0].rangeKey !in KeySet(rest)
  {
    forall x | x in rest
      ensures x.rangeKey != rs[0].rangeKey
    {
      assert x in multiset(rs[1..]);
      var m :| 0 <= m < |rs[1..]| && rs[1..][m] == x;
      assert rs[m + 1] == x;
    }
  }

  /**
   * `ksort`: the same entries, in strictly ascending key order.
   */
  function KSort(rs: seq<Range>): (sorted: seq<Range>)
    requires UniqueKeys(rs)
    ensures multiset(sorted) == multiset(rs)
    ensures SortedByKey(sorted)
  {
    if rs == [] then []
    else
      assert UniqueKeys(rs[1..]) by {
        forall i, j | 0 <= i < j < |rs[1..]|
          ensures rs[1..][i].rangeKey != rs[1..][j].rangeKey
        {
          assert rs[1..][i] == rs[i + 1] && rs[1..][j] == rs[j + 1];
        }
      }
      var rest := KSort(rs[1..]);
      FirstKeyNotInRest(rs, rest);
      InsertByKeyPermutes(rs[0], rest);
      InsertByKeySorted(rs[0], rest);
      assert rs == [rs[0]] + rs[1..];
      InsertByKey(rs[0], rest)
  }

  /** Sorted entries have unique keys and an ascending key list. */
  lemma SortedKeys(rs: seq<Range>)
    requires SortedByKey(rs)
    ensures UniqueKeys(rs)
    ensures StrictlyAscending(KeysOf(rs))
  {
    forall i, j | 0 <= i < j < |rs|
      ensures rs[i].rangeKey != rs[j].rangeKey
    {
      BelowIrreflexive(rs[i].rangeKey);
    }
  }

  /** The key → value view of a list of entries with unique keys. */
  ghost function ValueMap(rs: seq<Range>): (m: map<string, Option<string>>)
    requires UniqueKeys(rs)
    reads rs
  {
    map r | r in rs :: r.rangeKey := r.rangeValue
  }

  /** `getValues`' result: key and value of each entry, in list order. */
  ghost function ValuesOf(rs: seq<Range>): (es: seq<Entry>)
    reads rs
  {
    if rs == [] then [] else ValuesOf(rs[..|rs| - 1]) + [(rs[|rs| - 1].rangeKey, rs[|rs| - 1].rangeValue)]
  }

  /** Rearranging the entries does not change the key → value view. */
  lemma ValueMapPermutation(s: seq<Range>, t: seq<Range>)
    requires UniqueKeys(s) && UniqueKeys(t)
    requires multiset(s) == multiset(t)
    ensures ValueMap(s) == ValueMap(t)
  {
    forall r | r in s
      ensures r in t
    {
      assert r in multiset(s);
    }
    forall r | r in t
      ensures r in s
    {
      assert r in multiset(t);
    }
  }

  /** Removing the entry for `k` removes `k` from the view and nothing else. */
  lemma ValueMapWithout(rs: seq<Range>, k: string)
    requires UniqueKeys(rs)
    ensures UniqueKeys(Without(rs, k))
    ensures ValueMap(Without(rs, k)) == ValueMap(rs) - {k}
  {
    WithoutFacts(rs, k);
    var t := Without(rs, k);
    ValueMapAt(rs);
    ValueMapAt(t);
    var m, m' := ValueMap(rs), ValueMap(t);
    WithoutKeySet(rs, k);
    forall key | key in m'
      ensures key in m && m'[key] == m[key]
    {
      var r :| r in t && r.rangeKey == key;
      assert r in rs;
    }
    ValueMapPointwise(t, m - {k});
  }

  /** Dropping key `k` drops exactly `k` from the keys. */
  lemma WithoutKeySet(rs: seq<Range>, k: string)
    ensures KeySet(Without(rs, k)) == KeySet(rs) - {k}
  {
    var t := Without(rs, k);
    forall key | key in KeySet(rs) - {k}
      ensures key in KeySet(t)
    {
      var r :| r in rs && r.rangeKey == key;
      assert r in t;
    }
  }

  /** Appending an entry with a new key adds exactly that key to the view. */
  lemma ValueMapAppend(rs: seq<Range>, r: Range)
    requires UniqueKeys(rs) && r.rangeKey !in KeySet(rs)
    ensures UniqueKeys(rs + [r])
    ensures ValueMap(rs + [r]) == ValueMap(rs)[r.rangeKey := r.rangeValue]
  {
    var t := rs + [r];
    forall i, j | 0 <= i < j < |t|
      ensures t[i].rangeKey != t[j].rangeKey
    {
      if j == |rs| {
        assert t[i] in rs;
      }
    }
  }

  /**
   * `ksort` is deterministic: entries that are a rearrangement of each other
   * sort to the same list, whatever order they arrived in.
   */
  lemma KSortCanonical(s: seq<Range>, t: seq<Range>)
    requires UniqueKeys(s) && UniqueKeys(t)
    requires multiset(s) == multiset(t)
    ensures KSort(s) == KSort(t)
  {
    var a, b := KSort(s), KSort(t);
    SortedKeys(a);
    SortedKeys(b);
    SameMembersSameKeys(a, b);
    AscendingUnique(KeysOf(a), KeysOf(b));
    forall i | 0 <= i < |a|
      ensures a[i] == b[i]
    {
      SameMemberAt(a, b, i);
    }
  }

  lemma SameMembersSameKeys(a: seq<Range>, b: seq<Range>)
    requires multiset(a) == multiset(b)
    ensures forall k :: k in KeysOf(a) <==> k in KeysOf(b)
  {
    forall k | k in KeysOf(a)
      ensures k in KeysOf(b)
    {
      var i :| 0 <= i < |a| && KeysOf(a)[i] == k;
      assert a[i] in multiset(b);
      var j :| 0 <= j < |b| && b[j] == a[i];
      assert KeysOf(b)[j] == k;
    }
    forall k | k in KeysOf(b)
      ensures k in KeysOf(a)
    {
      var j :| 0 <= j < |b| && KeysOf(b)[j] == k;
      assert b[j] in multiset(a);
      var i :| 0 <= i < |a| && a[i] == b[j];
      assert KeysOf(a)[i] == k;
    }
  }

  lemma SameMemberAt(a: seq<Range>, b: seq<Range>, i: nat)
    requires multiset(a) == multiset(b) && UniqueKeys(b)
    requires KeysOf(a) == KeysOf(b) && i < |a|
    ensures a[i] == b[i]
  {
    assert a[i] in multiset(b);
    var j :| 0 <= j < |b| && b[j] == a[i];
    assert KeysOf(b)[j] == KeysOf(a)[i] == KeysOf(b)[i];
  }

  /** `getValues` one entry further: the entry's key and value come last. */
  lemma ValuesOfSnoc(rs: seq<Range>, i: nat)
    requires i < |rs|
    ensures ValuesOf(rs[..i + 1]) == ValuesOf(rs[..i]) + [(rs[i].rangeKey, rs[i].rangeValue)]
  {
    assert rs[..i + 1][..i] == rs[..i];
  }

  lemma {:induction false} ValuesOfAt(rs: seq<Range>)
    ensures |ValuesOf(rs)| == |rs|
    ensures forall i :: 0 <= i < |rs| ==> ValuesOf(rs)[i] == (rs[i].rangeKey, rs[i].rangeValue)
  {
    if rs != [] {
      ValuesOfAt(rs[..|rs| - 1]);
    }
  }

  /**
   * What `store` deletes: every stored entry whose key is not among `keep`,
   * in stored order, identified by its own parent id and key.
   */
  ghost function DeletesFor(stored: seq<Range>, keep: seq<string>): seq<Delete>
    reads stored
  {
    if stored == [] then []
    else
      var r := stored[|stored| - 1];
      var init := stored[..|stored| - 1];
      DeletesFor(init, keep) + (if r.rangeKey in keep then [] else [Delete(RangeTable, r.scheduledDowntimeId, r.rangeKey)])
  }

  /**
   * The deletes name the range table, touch only stored keys that are no
   * longer kept, and cover every such stored entry.
   */
  lemma {:induction false} DeletesForFacts(stored: seq<Range>, keep: seq<string>)
    ensures forall d :: d in DeletesFor(stored, keep) ==>
      d.table == RangeTable && d.key in KeySet(stored) && d.key !in keep
    ensures forall r :: r in stored && r.rangeKey !in keep ==>
      Delete(RangeTable, r.scheduledDowntimeId, r.rangeKey) in DeletesFor(stored, keep)
    ensures |DeletesFor(stored, keep)| <= |stored|
  {
    if stored != [] {
      var init := stored[..|stored| - 1];
      DeletesForFacts(init, keep);
      assert stored == init + [stored[|stored| - 1]];
    }
  }

  /** A snapshot with unique keys gets at most one delete per key. */
  lemma {:induction false} DeletesForDistinct(stored: seq<Range>, keep: seq<string>)
    requires UniqueKeys(stored)
    ensures forall i, j :: 0 <= i < j < |DeletesFor(stored, keep)| ==>
      DeletesFor(stored, keep)[i].key != DeletesFor(stored, keep)[j].key
  {
    if stored != [] {
      var last := stored[|stored| - 1];
      var init := stored[..|stored| - 1];
      assert UniqueKeys(init) by {
        forall a, b | 0 <= a < b < |init|
          ensures init[a].rangeKey != init[b].rangeKey
        {
          assert init[a] == stored[a] && init[b] == stored[b];
        }
      }
      DeletesForDistinct(init, keep);
      DeletesForFacts(init, keep);
      var ds := DeletesFor(init, keep);
      if last.rangeKey !in keep {
        forall d | d in ds
          ensures d.key != last.rangeKey
        {
          var x :| x in init && x.rangeKey == d.key;
          var a :| 0 <= a < |init| && init[a] == x;
          assert stored[a] == x;
        }
        var all := DeletesFor(stored, keep);
        forall i, j | 0 <= i < j < |all|
          ensures all[i].key != all[j].key
        {
          if j == |ds| {
            assert all[i] == ds[i] && ds[i] in ds;
          } else {
            assert all[i] == ds[i] && all[j] == ds[j];
          }
        }
      }
    }
  }

  /** Storing twice without changes in between deletes nothing the second time. */
  lemma StoreAgainDeletesNothing(rs: seq<Range>)
    ensures DeletesFor(rs, KeysOf(rs)) == []
  {
    KeySetIsKeysOf(rs);
    NothingToDelete(rs, KeysOf(rs));
  }

  lemma {:induction false} NothingToDelete(stored: seq<Range>, keep: seq<string>)
    requires forall r :: r in stored ==> r.rangeKey in keep
    ensures DeletesFor(stored, keep) == []
  {
    if stored != [] {
      NothingToDelete(stored[..|stored| - 1], keep);
      assert stored[|stored| - 1] in stored;
    }
  }

  lemma KeySetIsKeysOf(rs: seq<Range>)
    ensures forall k :: k in KeySet(rs) <==> k in KeysOf(rs)
  {
    forall k | k in KeySet(rs)
      ensures k in KeysOf(rs)
    {
      var r :| r in rs && r.rangeKey == k;
      var i :| 0 <= i < |rs| && rs[i] == r;
      assert KeysOf(rs)[i] == k;
    }
  }

  /** With unique keys there are as many keys as entries. */
  lemma {:induction false} UniqueKeySetSize(rs: seq<Range>)
    requires UniqueKeys(rs)
    ensures |KeySet(rs)| == |rs|
  {
    if rs != [] {
      var init := rs[..|rs| - 1];
      var last := rs[|rs| - 1];
      assert UniqueKeys(init) by {
        forall i, j | 0 <= i < j < |init|
          ensures init[i].rangeKey != init[j].rangeKey
        {
          assert init[i] == rs[i] && init[j] == rs[j];
        }
      }
      UniqueKeySetSize(init);
      assert rs == init + [last];
      assert KeySet(rs) == KeySet(init) + {last.rangeKey};
      assert last.rangeKey !in KeySet(init) by {
        forall x | x in init
          ensures x.rangeKey != last.rangeKey
        {
          var i :| 0 <= i < |init| && init[i] == x;
          assert rs[i] == x;
        }
      }
    }
  }

  /** Dropping `k` and re-sorting leaves every other key with its value. */
  lemma SortedWithoutView(rs: seq<Range>, k: string)
    requires UniqueKeys(rs)
    ensures UniqueKeys(Without(rs, k))
    ensures UniqueKeys(KSort(Without(rs, k)))
    ensures ValueMap(KSort(Without(rs, k))) == ValueMap(rs) - {k}
    ensures forall r :: r in KSort(Without(rs, k)) <==> r in rs && r.rangeKey != k
  {
    var kept := Without(rs, k);
    WithoutFacts(rs, k);
    var sorted := KSort(kept);
    SortedKeys(sorted);
    assert ValueMap(sorted) == ValueMap(kept) by {
      ValueMapPermutation(sorted, kept);
    }
    assert ValueMap(kept) == ValueMap(rs) - {k} by {
      ValueMapWithout(rs, k);
    }
    forall r
      ensures r in sorted <==> r in kept
    {
      assert r in sorted <==> r in multiset(sorted);
    }
  }

  /** The view has one key per entry and maps it to that entry's value. */
  lemma ValueMapAt(rs: seq<Range>)
    requires UniqueKeys(rs)
    ensures ValueMap(rs).Keys == KeySet(rs)
    ensures forall r :: r in rs ==> ValueMap(rs)[r.rangeKey] == r.rangeValue
  {
  }

  /** The value view depends on nothing but the entries' keys and values. */
  twostate lemma ValueMapFrame(rs: seq<Range>)
    requires UniqueKeys(rs)
    requires forall r :: r in rs ==> r.rangeValue == old(r.rangeValue)
    ensures ValueMap(rs) == old(ValueMap(rs))
  {
    var now, before := ValueMap(rs), old(ValueMap(rs));
    forall key | key in now
      ensures now[key] == before[key]
    {
      var r :| r in rs && r.rangeKey == key;
    }
  }

  /** The converse: a view that did not change means no entry's value changed. */
  twostate lemma ValueMapUnframe(rs: seq<Range>)
    requires UniqueKeys(rs)
    requires ValueMap(rs) == old(ValueMap(rs))
    ensures forall r :: r in rs ==> r.rangeValue == old(r.rangeValue)
  {
    ValueMapAt(rs);
    forall r | r in rs
      ensures r.rangeValue == old(r.rangeValue)
    {
      assert old(ValueMap(rs)[r.rangeKey] == r.rangeValue);
    }
  }

  /** A map with the entries' keys and their values is the view. */
  lemma ValueMapPointwise(rs: seq<Range>, m: map<string, Option<string>>)
    requires UniqueKeys(rs)
    requires m.Keys == KeySet(rs)
    requires forall r :: r in rs ==> m[r.rangeKey] == r.rangeValue
    ensures ValueMap(rs) == m
  {
    var v := ValueMap(rs);
    forall key | key in m
      ensures v[key] == m[key]
    {
      var r :| r in rs && r.rangeKey == key;
    }
  }
}

=== FILE: scenarios.dfy ===
/**
 * Short client sessions against the collection, each fixing what one
 * sequence of calls returns. They show behaviour that follows from the code
 * rather than from a casual reading of it: the snapshot shares its entries
 * after a store, names keep insertion order, and the iterator only sees
 * keys indexed by `remove` or `clear`.
 */
module Scenarios {
  import opened Wrappers
  import opened RangeEntry
  import opened DowntimeRanges
  import Assignment

  /**
   * After a store the snapshot holds the very entries of the working set, so
   * a later in-place change of a value shows in the original values as well.
   */
  method SnapshotSharesEntriesAfterStore() returns (original: seq<Entry>)
    ensures original == [("monday", Some("10:00-18:00"))]
  {
    var p := new Parent(Some(7), false, "icinga_scheduled_downtime");
    var c := new ScheduledDowntimeRanges.LoadForStoredObject(p, [Row(Some(7), "monday", Some("09:00-17:00"))]);
    assert c.ranges[0] in c.ranges && c.ranges == [c.ranges[0]];
    var ok, upserts, deletes := c.Store();
    assert "monday" in KeySet(c.ranges) by {
      assert c.ranges[0] in c.ranges;
    }
    c.SetRange("monday", Some("10:00-18:00"));
    ValueMapAt(c.ranges);
    assert c.ranges[0] in c.ranges;
    original := c.GetOriginalValues();
    ValuesOfAt(c.storedRanges);
  }

  /**
   * An entry that `set` drops through a null value lies outside what `set`
   * may write, so the snapshot that shares it after a store still shows it
   * with its stored value.
   */
  method DroppedEntryStaysInSnapshot() returns (current: nat, original: seq<Entry>)
    ensures current == 0
    ensures original == [("monday", Some("09:00-17:00"))]
  {
    var p := new Parent(Some(7), false, "icinga_scheduled_downtime");
    var c := new ScheduledDowntimeRanges.LoadForStoredObject(p, [Row(Some(7), "monday", Some("09:00-17:00"))]);
    assert c.ranges[0] in c.ranges && c.ranges == [c.ranges[0]];
    var ok, upserts, deletes := c.Store();
    var monday := c.ranges[0];
    assert c.storedRanges == [monday] && monday.rangeKey == "monday";
    assert Assignment.ValuedKeys([("monday", None)]) == {};
    c.Set([("monday", None)]);
    assert monday.rangeValue == Some("09:00-17:00");
    ValueMapAt(c.ranges);
    assert c.Values() == map[];
    current := c.Count();
    original := c.GetOriginalValues();
    ValuesOfAt(c.storedRanges);
  }

  /**
   * When `set` removes nothing, the keys it adds follow in the mapping's
   * order, not sorted, and every new entry carries the parent's id.
   */
  method SetAppendsInMappingOrder() returns (names: seq<string>, ids: seq<Option<int>>)
    ensures names == ["tuesday", "monday"]
    ensures ids == [Some(7), Some(7)]
  {
    var p := new Parent(Some(7), false, "icinga_scheduled_downtime");
    var c := new ScheduledDowntimeRanges(p);
    var es := [("tuesday", Some("09:00-12:00")), ("monday", Some("09:00-17:00"))];
    assert Assignment.EntryKeys(es) == ["tuesday", "monday"];
    ValueMapAt(c.ranges);
    assert c.Values() == map[];
    assert Assignment.KeyDiff(["tuesday", "monday"], []) == ["tuesday", "monday"];
    c.Set(es);
    assert Assignment.Extends([], c.ranges, ["tuesday", "monday"]);
    assert c.ranges[0..] == c.ranges;
    names := c.ListRangesNames();
    ids := [c.ranges[0].scheduledDowntimeId, c.ranges[1].scheduledDowntimeId];
  }

  /**
   * A stored entry that `set` gives a new value keeps its parent id; only its
   * value is written.
   */
  method SetKeepsStoredIds() returns (id: Option<int>)
    ensures id == Some(7)
  {
    var p := new Parent(Some(7), false, "icinga_scheduled_downtime");
    var c := new ScheduledDowntimeRanges.LoadForStoredObject(p, [Row(Some(7), "monday", Some("09:00-17:00"))]);
    assert c.ranges[0] in c.ranges && c.ranges == [c.ranges[0]];
    var ok, upserts, deletes := c.Store();
    var monday := c.ranges[0];
    c.Set([("monday", Some("10:00-18:00"))]);
    id := monday.scheduledDowntimeId;
  }

  /** Names come back in the order the keys were added, not sorted. */
  method NamesKeepInsertionOrder() returns (names: seq<string>)
    ensures names == ["tuesday", "monday"]
  {
    var p := new Parent(Some(7), false, "icinga_scheduled_downtime");
    var c := new ScheduledDowntimeRanges(p);
    c.SetRange("tuesday", Some("09:00-12:00"));
    assert KeySet(c.ranges) == {"tuesday"} by {
      assert c.ranges == [c.ranges[0]];
    }
    c.SetRange("monday", Some("09:00-17:00"));
    names := c.ListRangesNames();
    assert c.ranges[0].rangeKey == "tuesday";
  }

  /**
   * A key added by `setRange` counts, but the iterator does not reach it
   * until something rebuilds the index.
   */
  method AddedKeyIsNotIterated() returns (count: nat, visible: bool)
    ensures count == 1 && !visible
  {
    var p := new Parent(None, false, "icinga_scheduled_downtime");
    var c := new ScheduledDowntimeRanges(p);
    c.SetRange("monday", Some("09:00-17:00"));
    assert KeySet(c.ranges) == {"monday"} by {
      assert c.ranges == [c.ranges[0]];
    }
    count := c.Count();
    c.Rewind();
    visible := c.ValidPosition();
  }
}

=== FILE: wrappers.dfy ===
/** The optional value used wherever PHP code returns or stores `null`. */
module Wrappers {

  datatype Option<+T> = None | Some(value: T)

}
